=== FILE: README.md ===
# Baraag DL in Dafny

A model of the media-archiving core of Baraag DL (`baraag_dl.py`, v0.011), a
single-user downloader for a Mastodon instance. For every account the user
follows, the program walks the account's media timeline page by page, builds a
nested dictionary of attachments with a local filename each, and downloads
every attachment into a per-account folder, skipping files that already exist.

The network and the disk are replaced by explicit inputs:

- the statuses endpoint (`get_page`) is a scripted sequence of replies, the
  k-th reply answering the k-th fetch (`Timeline.PageReply`);
- the follow-list endpoint is a scripted sequence of HTTP replies
  (`Following.Reply`: an exception, or a status verdict, the accounts of the
  already decoded JSON body and the `next` link of the Link header field,
  section 3 of RFC 8288);
- the owner's id, which the source reads from `client.me()`, is the `userId`
  parameter of `Following.GetFollowing`;
- the disk is a map from path to bytes (`Download.FileSystem`);
- the request `download_file` makes for an attachment is a function
  `Url -> Fetched`: the whole body, a body cut short by an exception after the
  file was opened, or an exception before anything arrived;
- `os.name == "posix"` is the boolean parameter `posix`.

`open(folder + filename, 'wb')` (line 572) raises, and the run ends, when the
filename holds a path separator (`Naming.Separators`: `/`, and on Windows also
`\`), because the account folder has no sub-folders. The extension is
everything after the last dot of the URL, so a URL with no dot after its last
`/` gives one: `https://baraag.net/media/abc` has the extension
`.net/media/abc`. `Download.Openable` captures this; the request is made
before the open, so such an attachment is fetched but never written.

Every `sys.exit()`, and every uncaught exception the model covers, becomes
`Outcome.Exit(reason)`. The uncaught ones are a failed later follow-list
request (line 354), a failed attachment request (line 570, outside the
`try`) and a blank timestamp. A name that cannot be opened and a body cut
short are caught at line 577, which then calls `sys.exit()`.

Python dictionaries keep insertion order, and the download loop depends on
it, so they are modelled by `Dicts.Dict`: a map plus the order of first
insertion. Ids that Mastodon.py hands over as integers are
`nat` values rendered by `Text.Decimal` (`str(id)`). Ids in the follow list come
from raw `requests` JSON, so they stay strings.

Modules, one per concern of the source:

| file | module | models |
|---|---|---|
| wrappers.dfy | Wrappers | `Option`, exit reasons, `Outcome` |
| seqs.dfy | Seqs | first and last position of an element in a list |
| text.dfy | Text | `str(int)`, `str.split()[0]`, `str.split(c)[-1]` |
| dicts.dfy | Dicts | insertion-ordered dictionaries, dict comprehension / assignment loop |
| entities.dfy | Entities | accounts, posts, attachments, pages |
| timeline.dfy | Timeline | `get_timeline` |
| following.dfy | Following | `get_following`, `parse_following` |
| attachments.dfy | Attachments | `get_attachment_data` |
| naming.dfy | Naming | `sanitize`, the folder name and separator |
| download.dfy | Download | `download_file`, the loop of `process_following_user` |

Behaviour of `baraag_dl.py` v0.011 that the model keeps as the code has it:

- The extension is literally `"." + url.split(".")[-1]`, query string
  included.
- The check after the first follow-list request is `not req_response`, which
  tests the HTTP status, not whether the list is empty. An OK response with an
  empty list goes on and yields an empty follow list. Later responses are not
  checked at all.
- Pagination stops only on an empty page; a short page is followed by one more
  fetch.

## Model

| member | source | states |
|---|---|---|
| Text.FirstToken | baraag_dl.py:513 | `str(created_at).split()[0]`: absent exactly when the text is all whitespace (Python raises IndexError); otherwise a token that follows leading whitespace, is non-empty, has no whitespace, and ends at the end of the text or at whitespace |
| Text.FirstTokenUnique | baraag_dl.py:513 | any string meeting that description is the one `FirstToken` returns, so the description pins the date down |
| Text.LastSegment | baraag_dl.py:526 | `url.split(".")[-1]` is the longest dot-free suffix: a suffix without the separator that is either the whole text or preceded by the separator |
| Text.LastSegmentAfter | baraag_dl.py:526 | the last segment of `x + c + y` is `y` when `y` has no `c` |
| Text.Decimal | baraag_dl.py:514 | `str(id)` of a non-negative id is a non-empty string of digits that starts with `0` exactly when the id is zero |
| Text.DecimalValue | baraag_dl.py:514 | `str(id)` denotes the id: its digits, read left to right as a decimal number, give back the id |
| Text.ValueDecimal | baraag_dl.py:514 | every digit string without a leading zero, other than `0` itself, is `str` of the number it denotes, so `str` hits exactly the canonical digit strings |
| Text.DecimalInjective | baraag_dl.py:514-523 | `str` is injective on ids, so distinct post or attachment ids give distinct keys |
| Text.SplitAtLast | baraag_dl.py:526-528 | joining with a separator that the right part does not contain can be undone uniquely |
| Dicts.Put | baraag_dl.py:516 | `d[k] = v` keeps the dictionary well formed, adds `k` to its keys, stores `v` under `k`, leaves every other key's value alone, keeps the position of a present key and appends a new one |
| Dicts.FromPairs | baraag_dl.py:375-376 | a dictionary built by assigning pairs in turn is well formed (each key once in the iteration order) and its keys are exactly the keys of the pairs |
| Dicts.FromPairsLast | baraag_dl.py:516-536 | a later assignment to the same key overwrites: the value under each key is that of its last pair |
| Dicts.FromPairsOrder | baraag_dl.py:667-669 | iteration visits keys in the order of their first insertion |
| Timeline.Pages | baraag_dl.py:472-488 | the timeline is the pages before the first stopping reply, all of them non-empty, in fetch order |
| Timeline.GetTimeline | baraag_dl.py:472-488 | exactly one fetch more than pages kept; first cursor `None`; fetch k+1 uses the id of the last post of page k; success exactly when the last fetch returned an empty page, with the pages before it; a Mastodon.py error at any fetch ends the run (lines 442-446) |
| Following.FollowingUrlInjective | baraag_dl.py:328 | the first request for a user id is the accounts API, the id in decimal and `/following`, and different user ids are never asked about at the same URL |
| Following.GetFollowing | baraag_dl.py:328-359 | requests the endpoint for the user id, then each `next` URL in turn; exits when the first request raises or the first response is not OK; otherwise returns the in-order concatenation of every body of the chain, the last one included, or ends the run when a later request raises |
| Following.ParseFollowing | baraag_dl.py:375-376 | the follow dictionary is well formed, its keys are exactly the handles of the list, and iteration visits them in the order of each handle's first entry |
| Following.ParseFollowingValue | baraag_dl.py:375-376 | the value under a handle names that handle as `account` and carries the id of the last entry with that handle |
| Following.ParseFollowingSpec | baraag_dl.py:375-376 | the same for every key at once |
| Attachments.Extension | baraag_dl.py:526 | the extension is a dot followed by the dot-free tail of the URL; it is preceded by a dot in the URL when the URL has one, and it is the whole URL after a dot when it has none |
| Attachments.FileName | baraag_dl.py:528 | `"_".join([date, post_id, attachment_id]) + extension` begins with the date and `_`, ends with the URL's extension, and is as long as its parts plus two separators |
| Attachments.FileNameParts | baraag_dl.py:526-528 | the filename is exactly the date, `_`, the post id, `_`, the attachment id, `.` and the part of the URL after its last dot, in that order |
| Attachments.MediaPairs | baraag_dl.py:522-536 | the inner loop assigns one pair per attachment, keyed `str(attachment id)`, in the order of the post's attachments |
| Attachments.ResolvePost | baraag_dl.py:514-536 | the media dictionary stored for a post is well formed |
| Attachments.ResolvePostKeys | baraag_dl.py:514-522 | a post entry names its own key as `id`, and its media dictionary is keyed by exactly the post's attachment ids, even when there are none |
| Attachments.ResolvePostMedia | baraag_dl.py:522-536 | each media entry names its own key, keeps the URL of the last attachment with that id unchanged, and has the filename built from the date, the post key, its own key and that URL |
| Attachments.PostPairs | baraag_dl.py:511-518 | the outer loop assigns one pair per post, keyed `str(post id)`, in the order the two loops visit the posts |
| Attachments.AttachmentData | baraag_dl.py:509-538 | the run ends with IndexError exactly when some post of the timeline has a blank timestamp text; otherwise the result is a well-formed dictionary |
| Attachments.BlankTimestamp | baraag_dl.py:513 | some timestamp has no first token exactly when some timestamp text is all whitespace |
| Attachments.AttachmentDataKeys | baraag_dl.py:511-518 | every post of every page gets an entry under `str(post id)`, and nothing else does |
| Attachments.AttachmentDataEntry | baraag_dl.py:511-518 | a post id that occurs twice keeps only its last occurrence: the entry is the one resolved from the last post with that key, and its `id` is the key |
| Attachments.FileNameSplit | baraag_dl.py:528 | with digit-only ids, equal filenames have equal dates, post ids and attachment ids, whatever the dates hold: the name splits uniquely from the right at the last `.`, then the last two `_` |
| Attachments.FileNameInjective | baraag_dl.py:528 | filenames never collide across distinct (post id, attachment id) pairs, for any dates |
| Attachments.AttachmentDataNames | baraag_dl.py:511-536 | every media entry of the dictionary is named after its own post key and attachment key, both digit-only |
| Attachments.NamesDetermineKeys | baraag_dl.py:511-536 | so two media entries of the dictionary with the same filename sit under the same post key and attachment key |
| Naming.Sanitize | baraag_dl.py:602-613 | length is kept; each of `^ @ % $ ? : < > \ * "`, the pipe character and space becomes `_`; every other character is kept; no bad character remains |
| Naming.SanitizeFixpoint | baraag_dl.py:602-613 | a string is left unchanged exactly when it has no bad character |
| Naming.SanitizeIdempotent | baraag_dl.py:602-613 | sanitizing twice equals sanitizing once |
| Naming.FolderName | baraag_dl.py:646 | the folder name is the handle with every bad character replaced by `_` and the others kept, then `_`, then the id unchanged |
| Naming.FolderPath | baraag_dl.py:657-660 | the folder prefix is the folder name plus one separator: `/` on POSIX, `\` otherwise, which is a character `sanitize` removes from handles |
| Naming.FolderNameId | baraag_dl.py:646 | for ids without `_` (account ids are digit strings), the account id is the part of the folder name after its last `_` |
| Naming.FolderNameDistinct | baraag_dl.py:646 | for ids without `_` (account ids are digit strings), accounts with different ids never share a folder, whatever their handles |
| Naming.FolderNameClean | baraag_dl.py:646 | the folder name has no bad character when the id has none |
| Download.DownloadFile | baraag_dl.py:562-581 | an existing target is kept and nothing is requested; otherwise the URL is requested and only the target path can change; the target is written exactly when its name can be opened and bytes arrived, and then holds exactly those bytes; the run goes on exactly when the whole body arrived and was written, otherwise it ends with a download failure |
| Download.DownloadFileTwice | baraag_dl.py:567-575 | downloading twice leaves the disk as downloading once, and a completed download is not requested again |
| Download.PartialFileKept | baraag_dl.py:567-581 | a file cut short by a failed download is skipped by every later run |
| Download.PostQueue | baraag_dl.py:668-670 | the inner loop visits one attachment per key of the post, as many as the post has, and a media entry is visited exactly when it is stored under some key, in `post.keys()` order |
| Download.QueueDistinct | baraag_dl.py:667-670 | the attachments the nested loop visits all have different filenames, so no two of them aim at the same target |
| Download.QueueSpec | baraag_dl.py:667-670 | the nested loop visits every attachment of every post, and nothing else |
| Download.DownloadAll | baraag_dl.py:667-671 | the loop is the fold `Loop` of `download_file` over the queue, stopping at the first call that ends the run; existing files are never touched; every new file is a target and holds the bytes received for the first attachment aimed at it; the loop completes exactly when it gets past every attachment (each is skipped, or arrives whole and can be opened), then every attachment is on disk and exactly the new targets were requested, in order; otherwise it stops at the first attachment it cannot get past, which was new and not retrievable, every earlier one passed and is on disk, the requests are exactly the new targets up to it, its URL last, and new files are only targets up to it |
| Download.LoopSpec | baraag_dl.py:667-671 | the fold, started wherever the loop invariant holds, keeps every promise above |
| Download.DownloadStep | baraag_dl.py:562-581 | one turn keeps existing files, writes only the current target with the bytes received for it, leaves it on disk when the run goes on, and requests only missing targets |
| Download.StepOutcome | baraag_dl.py:562-581 | one turn requests the attachment exactly when its target is new, goes on exactly when it gets past it, and otherwise stops there |
| Download.PassedRetrievable | baraag_dl.py:567-581 | when the filenames differ, getting past every attachment means every attachment was on disk already or retrievable and openable |
| Download.ProcessAccount | baraag_dl.py:642-671 | for one account: files already on disk are kept; every new file lies under `sanitize(acct)_id` plus the separator and holds the bytes received for one of the account's attachments; success means the timeline was walked to its end and every resolved attachment is on disk there; the account succeeds exactly when nothing can go wrong for it; a failed download stops at the first attachment the loop cannot get past, and new files are only targets up to it; a timeline error or a blank timestamp ends the run with the disk unchanged |
| Download.AccountOutcome | baraag_dl.py:667-671 | the download loop completes only for an account for which nothing can go wrong, and a stop names the failing attachment |
| Download.HealthyGrows | baraag_dl.py:567 | existence alone decides whether a file is skipped, so more files on disk never make an account fail |
| Download.ProcessFollowing | baraag_dl.py:642-673 | over the follow dictionary in insertion order: files already on disk are kept, every new file holds the bytes received for an attachment of a followed account, the accounts before the stopping point are archived, success exactly when all were processed and then every followed account is archived, a stop happens only at an account for which something can go wrong, so the run completes whenever nothing can; after a stop, every new file belongs to an account up to the stopping one, so later accounts are left alone |

## Left out

- Authentication and client setup (`create_client`, `init_client`,
  `request_login`, `user_login`, `cold_init`, `initialize`, lines 46-309):
  credential files and interactive prompts.
- `get_owner_info` (lines 378-406): `client.me()` is a Mastodon.py call. The
  owner id it returns is the `userId` parameter of `Following.GetFollowing`,
  and a failing `client.me()` is not modelled.
- `get_page` (lines 408-448): a Mastodon.py call, replaced by the scripted
  `Timeline.PageReply` sequence; its error handlers (lines 139-178) become
  `Exit(ApiFailed)`.
- Following.GetFollowing: a response body that is not JSON, on which
  `.json()` raises (lines 352 and 357), is not modelled; every reply carries
  its list of accounts already decoded.
- Download.DownloadFile: of the names the operating system refuses, only those
  holding a path separator are modelled as failing to open; Windows-reserved
  characters in the extension (`:`, `?`, `*`, ...), over-long names and a
  sub-folder created by hand are not.
- `search_user` (lines 678-708): interactive, relies on the global `client = None`,
  and is marked as not yet in use.
- `main` (lines 711-747), console output, colours, logging and the
  `KeyboardInterrupt` handlers.
- Streaming in chunks (lines 570-574) is one fetch result; HTTP status codes
  are not checked by `download_file`, so an error page is whatever body the
  fetch function returns.
- Parsing of the Link header by `requests`: each reply carries its `next` URL
  already extracted.
- `os.makedirs` and the directory check (lines 662-665): the file system map
  holds files only, so folder creation is not modelled.
- Non-terminating servers: `Timeline.GetTimeline`, `Following.GetFollowing`,
  `Download.ProcessAccount` and `Download.ProcessFollowing` require a script
  that contains a stopping reply; a server that never sends an empty page or a
  final link keeps the source looping forever.
- The JSON shape of a non-OK later follow-list response: its body is taken as a
  list of accounts like any other.

=== FILE: attachments.dfy ===
/** `get_attachment_data`: the nested dictionary post id -> media id ->
    {id, url, filename} built from a timeline. */
module Attachments {
  import opened Wrappers
  import opened Text
  import opened Seqs
  import opened Dicts
  import opened Entities

  /** One value of a post's `'media'` dictionary. */
  datatype MediaEntry = MediaEntry(id: string, url: Url, filename: string)

  /** One value of the outer dictionary: `{'id': ..., 'media': {...}}`. */
  datatype PostEntry = PostEntry(id: string, media: Dict<MediaEntry>)

  /** `"." + url.split(".")[-1]`: a dot and everything after the last dot of
      the URL, query string included; all of the URL when it has no dot. */
  function Extension(url: Url): (ext: string)
    ensures |ext| >= 1 && ext[0] == '.' && '.' !in ext[1..]
    ensures |ext| - 1 <= |url| && ext[1..] == url[|url| - (|ext| - 1)..]
    ensures '.' in url ==> |ext| <= |url| && url[|url| - |ext|] == '.'
    ensures '.' !in url ==> ext == "." + url
  {
    var seg := LastSegment(url, '.');
    LastSegmentNone(url, '.');
    "." + seg
  }

  /** `"_".join([date, post_id, attachment_id]) + extension`, grouped from
      the right. The name begins with the date and `_` and ends with the
      extension of the URL. */
  function FileName(date: string, postId: string, attachmentId: string, url: Url): (name: string)
    ensures |name| == |date| + |postId| + |attachmentId| + 2 + |Extension(url)|
    ensures forall i :: 0 <= i < |date| ==> name[i] == date[i]
    ensures name[|date|] == '_'
    ensures forall i :: 0 <= i < |Extension(url)| ==> name[|name| - |Extension(url)| + i] == Extension(url)[i]
  {
    date + ("_" + (postId + ("_" + (attachmentId + Extension(url)))))
  }

  /** The keys `str(id)` of a list of ids, in order. */
  function IdKeys(ids: seq<nat>): (ks: seq<string>)
    ensures |ks| == |ids|
    ensures forall i :: 0 <= i < |ks| ==> ks[i] == Decimal(ids[i])
  {
    seq(|ids|, i requires 0 <= i < |ids| => Decimal(ids[i]))
  }

  /** The key/value pairs the inner loop assigns for the attachments of the
      post `postId` dated `date`, in order. */
  function MediaPairs(date: string, postId: string, atts: seq<Attachment>): (ps: seq<(string, MediaEntry)>)
    ensures Keys(ps) == IdKeys(AttachmentIds(atts))
  {
    seq(|atts|, i requires 0 <= i < |atts| =>
      var aid := Decimal(atts[i].id);
      (aid, MediaEntry(aid, atts[i].url, FileName(date, postId, aid, atts[i].url))))
  }

  /** The entry stored for one post, whose date is `date`. */
  function ResolvePost(date: string, p: Post): (e: PostEntry)
    ensures e.media.Valid()
  {
    var pid := Decimal(p.id);
    PostEntry(pid, FromPairs(MediaPairs(date, pid, p.attachments)))
  }

  /** The posts of a timeline in the order the two loops visit them. */
  function Flatten(timeline: seq<Page>): (posts: seq<Post>)
  {
    if timeline == [] then []
    else Flatten(timeline[..|timeline| - 1]) + timeline[|timeline| - 1]
  }

  /** Every post's timestamp text has a first token. */
  predicate WellDated(posts: seq<Post>) {
    forall i :: 0 <= i < |posts| ==> FirstToken(posts[i].createdAt).Some?
  }

  /** The key/value pairs the outer loop assigns, in order. */
  function PostPairs(posts: seq<Post>): (ps: seq<(string, PostEntry)>)
    requires WellDated(posts)
    ensures Keys(ps) == IdKeys(PostIds(posts))
  {
    seq(|posts|, i requires 0 <= i < |posts| =>
      (Decimal(posts[i].id), ResolvePost(FirstToken(posts[i].createdAt).value, posts[i])))
  }

  /** `get_attachment_data(timeline)`. Python raises IndexError at the first
      post whose timestamp text is blank; the run ends there. */
  function AttachmentData(timeline: seq<Page>): (r: Outcome<Dict<PostEntry>>)
    ensures r.Exit? <==> exists i :: 0 <= i < |Flatten(timeline)| && AllSpace(Flatten(timeline)[i].createdAt)
    ensures r.Exit? ==> r.reason == MalformedTimestamp
    ensures r.Ok? ==> r.value.Valid()
  {
    var posts := Flatten(timeline);
    BlankTimestamp(posts);
    if WellDated(posts) then Ok(FromPairs(PostPairs(posts)))
    else
      assert exists i :: 0 <= i < |posts| && AllSpace(posts[i].createdAt);
      Exit(MalformedTimestamp)
  }

  lemma BlankTimestamp(posts: seq<Post>)
    ensures !WellDated(posts) <==> exists i :: 0 <= i < |posts| && AllSpace(posts[i].createdAt)
  {
    if !WellDated(posts) {
      var i :| 0 <= i < |posts| && FirstToken(posts[i].createdAt).None?;
      assert AllSpace(posts[i].createdAt);
    }
  }

  /** A post's entry names the post's own key, and its media dictionary is
      keyed by exactly the post's attachment ids. */
  lemma ResolvePostKeys(date: string, p: Post)
    ensures ResolvePost(date, p).id == Decimal(p.id)
    ensures forall m :: m in ResolvePost(date, p).media.entries <==> m in IdKeys(AttachmentIds(p.attachments))
  {
  }

  /** Each media entry carries its own key as `id`, the URL of the last
      attachment with that id unchanged, and the filename built from the
      date, the post's key, its own key and that URL. */
  lemma ResolvePostMedia(date: string, p: Post, m: string)
    requires m in ResolvePost(date, p).media.entries
    ensures m in IdKeys(AttachmentIds(p.attachments))
    ensures var url := p.attachments[LastOf(IdKeys(AttachmentIds(p.attachments)), m)].url;
      ResolvePost(date, p).media.entries[m] == MediaEntry(m, url, FileName(date, Decimal(p.id), m, url))
  {
    FromPairsLast(MediaPairs(date, Decimal(p.id), p.attachments), m);
  }

  /** Every post of the timeline gets an entry under `str(id)`, and nothing
      else does. */
  lemma AttachmentDataKeys(timeline: seq<Page>)
    requires AttachmentData(timeline).Ok?
    ensures forall k :: k in AttachmentData(timeline).value.entries <==> k in IdKeys(PostIds(Flatten(timeline)))
  {
  }

  /** A post id seen twice keeps only its last occurrence: the entry under
      `k` is the one resolved from the last post with that id. */
  lemma AttachmentDataEntry(timeline: seq<Page>, k: string)
    requires AttachmentData(timeline).Ok?
    requires k in AttachmentData(timeline).value.entries
    ensures k in IdKeys(PostIds(Flatten(timeline)))
    ensures var p := Flatten(timeline)[LastOf(IdKeys(PostIds(Flatten(timeline))), k)];
      && FirstToken(p.createdAt).Some?
      && AttachmentData(timeline).value.entries[k] == ResolvePost(FirstToken(p.createdAt).value, p)
      && AttachmentData(timeline).value.entries[k].id == k
  {
    FromPairsLast(PostPairs(Flatten(timeline)), k);
  }

  /** The filename regrouped from the left, as it is read back. */
  lemma FileNameParts(date: string, postId: string, attachmentId: string, url: Url)
    ensures FileName(date, postId, attachmentId, url)
         == date + ['_'] + postId + ['_'] + attachmentId + ['.'] + LastSegment(url, '.')
  {
    var e := LastSegment(url, '.');
    assert FileName(date, postId, attachmentId, url)
        == date + (['_'] + (postId + (['_'] + (attachmentId + (['.'] + e)))));
    Regroup(date, ['_'], postId, ['_'], attachmentId, ['.'], e);
  }

  /** The filename splits back into its parts, read from the right: the
      extension after the last `.`, then the attachment id after the last
      `_`, then the post id after the `_` before it. With digit-only ids,
      equal filenames have equal dates, post ids and attachment ids, whatever
      the dates hold. */
  lemma FileNameSplit(d1: string, p1: string, a1: string, u1: Url, d2: string, p2: string, a2: string, u2: Url)
    requires AllDigits(p1) && AllDigits(a1) && AllDigits(p2) && AllDigits(a2)
    requires FileName(d1, p1, a1, u1) == FileName(d2, p2, a2, u2)
    ensures d1 == d2 && p1 == p2 && a1 == a2
  {
    var e1, e2 := LastSegment(u1, '.'), LastSegment(u2, '.');
    assert '_' !in p1 && '_' !in p2 && '_' !in a1 && '_' !in a2 by {
      assert !IsDigit('_');
    }
    var y1, y2 := d1 + ['_'] + p1, d2 + ['_'] + p2;
    var x1, x2 := y1 + ['_'] + a1, y2 + ['_'] + a2;
    FileNameParts(d1, p1, a1, u1);
    FileNameParts(d2, p2, a2, u2);
    SplitAtLast(x1, e1, x2, e2, '.');
    SplitAtLast(y1, a1, y2, a2, '_');
    SplitAtLast(d1, p1, d2, p2, '_');
  }

  /** Filenames never collide: the filename determines the date, the post
      id and the attachment id. */
  lemma FileNameInjective(d1: string, p1: nat, a1: nat, u1: Url, d2: string, p2: nat, a2: nat, u2: Url)
    requires FileName(d1, Decimal(p1), Decimal(a1), u1) == FileName(d2, Decimal(p2), Decimal(a2), u2)
    ensures d1 == d2 && p1 == p2 && a1 == a2
  {
    FileNameSplit(d1, Decimal(p1), Decimal(a1), u1, d2, Decimal(p2), Decimal(a2), u2);
    DecimalInjective(p1, p2);
    DecimalInjective(a1, a2);
  }

  /** The media entry `e` is named by a filename built from the post key `k`
      and the media key `m`, both digit strings. */
  ghost predicate NamedBy(e: MediaEntry, k: string, m: string) {
    && AllDigits(k) && AllDigits(m)
    && exists d, u :: e.filename == FileName(d, k, m, u)
  }

  /** Every media entry is named after the keys it is stored under. */
  ghost predicate KeyedNames(entries: map<string, PostEntry>) {
    forall k, m :: k in entries && m in entries[k].media.entries ==> NamedBy(entries[k].media.entries[m], k, m)
  }

  /** The dictionary `get_attachment_data` builds names every file after
      the keys it is stored under. */
  lemma AttachmentDataNames(timeline: seq<Page>)
    requires AttachmentData(timeline).Ok?
    ensures KeyedNames(AttachmentData(timeline).value.entries)
  {
    var entries := AttachmentData(timeline).value.entries;
    forall k, m | k in entries && m in entries[k].media.entries
      ensures NamedBy(entries[k].media.entries[m], k, m)
    {
      AttachmentDataEntry(timeline, k);
      var p := Flatten(timeline)[LastOf(IdKeys(PostIds(Flatten(timeline))), k)];
      var date := FirstToken(p.createdAt).value;
      ResolvePostKeys(date, p);
      ResolvePostMedia(date, p, m);
      var j := LastOf(IdKeys(AttachmentIds(p.attachments)), m);
      var url := p.attachments[j].url;
      assert entries[k].media.entries[m].filename == FileName(date, k, m, url);
    }
  }

  /** Two media entries with the same filename sit under the same keys. */
  lemma NamesDetermineKeys(entries: map<string, PostEntry>, k1: string, m1: string, k2: string, m2: string)
    requires KeyedNames(entries)
    requires k1 in entries && m1 in entries[k1].media.entries
    requires k2 in entries && m2 in entries[k2].media.entries
    ensures entries[k1].media.entries[m1].filename == entries[k2].media.entries[m2].filename ==> k1 == k2 && m1 == m2
  {
    var e1, e2 := entries[k1].media.entries[m1], entries[k2].media.entries[m2];
    assert NamedBy(e1, k1, m1) && NamedBy(e2, k2, m2);
    var d1, u1 :| e1.filename == FileName(d1, k1, m1, u1);
    var d2, u2 :| e2.filename == FileName(d2, k2, m2, u2);
    if e1.filename == e2.filename {
      FileNameSplit(d1, k1, m1, u1, d2, k2, m2, u2);
    }
  }
}

=== FILE: dicts.dfy ===
/** Python's `dict` with string keys: a map together with the order in which
    keys were first inserted. Assigning to a key that is already present
    replaces its value and keeps its position; iteration follows `order`. */
module Dicts {
  import opened Seqs

  datatype Dict<V> = Dict(order: seq<string>, entries: map<string, V>) {

    /** Every key appears once in `order`, and `order` lists exactly the keys. */
    predicate Valid() {
      && (forall i, j :: 0 <= i < j < |order| ==> order[i] != order[j])
      && (forall k :: k in entries ==> k in order)
      && (forall i :: 0 <= i < |order| ==> order[i] in entries)
    }
  }

  /** A well-formed dictionary lists each of its keys exactly once. */
  lemma OrderSize<V>(d: Dict<V>)
    requires d.Valid()
    ensures |d.order| == |d.entries|
  {
    DistinctCard(d.order);
    assert d.entries.Keys == set x | x in d.order;
  }

  /** `{}` */
  function Empty<V>(): (d: Dict<V>)
    ensures d.Valid() && d.entries == map[]
  {
    Dict([], map[])
  }

  /** `d[k] = v` */
  function Put<V>(d: Dict<V>, k: string, v: V): (r: Dict<V>)
    requires d.Valid()
    ensures r.Valid()
    ensures r.entries.Keys == d.entries.Keys + {k}
    ensures k in r.entries && r.entries[k] == v
    ensures forall j :: j in d.entries && j != k ==> r.entries[j] == d.entries[j]
    ensures k in d.entries ==> r.order == d.order
    ensures k !in d.entries ==> r.order == d.order + [k]
  {
    if k in d.entries then Dict(d.order, d.entries[k := v])
    else Dict(d.order + [k], d.entries[k := v])
  }

  /** The keys of a list of key/value pairs, in order. */
  function Keys<V>(ps: seq<(string, V)>): (ks: seq<string>)
    ensures |ks| == |ps|
    ensures forall i :: 0 <= i < |ps| ==> ks[i] == ps[i].0
  {
    seq(|ps|, i requires 0 <= i < |ps| => ps[i].0)
  }

  lemma KeysSnoc<V>(ps: seq<(string, V)>)
    requires ps != []
    ensures Keys(ps) == Keys(ps[..|ps| - 1]) + [ps[|ps| - 1].0]
  {
  }

  /** The dictionary a loop builds by assigning every pair of `ps` in turn,
      starting from `{}` (a dict comprehension does the same). */
  function FromPairs<V>(ps: seq<(string, V)>): (d: Dict<V>)
    ensures d.Valid()
    ensures forall k :: k in d.entries <==> k in Keys(ps)
  {
    if ps == [] then Empty()
    else
      var n := |ps| - 1;
      KeysSnoc(ps);
      Put(FromPairs(ps[..n]), ps[n].0, ps[n].1)
  }

  /** A later pair with the same key overwrites an earlier one: the value
      stored under each key is the one of its last pair. */
  lemma {:induction false} FromPairsLast<V>(ps: seq<(string, V)>, k: string)
    requires k in Keys(ps)
    ensures k in FromPairs(ps).entries
    ensures FromPairs(ps).entries[k] == ps[LastOf(Keys(ps), k)].1
    decreases |ps|
  {
    var n := |ps| - 1;
    KeysSnoc(ps);
    if ps[n].0 != k {
      assert k in Keys(ps[..n]);
      FromPairsLast(ps[..n], k);
      assert LastOf(Keys(ps), k) == LastOf(Keys(ps[..n]), k);
    }
  }

  /** Keys are iterated in the order of their first insertion. */
  lemma {:induction false} FromPairsOrder<V>(ps: seq<(string, V)>)
    ensures forall i, j :: 0 <= i < j < |FromPairs(ps).order| ==>
      FirstOf(Keys(ps), FromPairs(ps).order[i]) < FirstOf(Keys(ps), FromPairs(ps).order[j])
    decreases |ps|
  {
    if ps != [] {
      var n := |ps| - 1;
      var d0, d := FromPairs(ps[..n]), FromPairs(ps);
      var ks, key := Keys(ps[..n]), ps[n].0;
      FromPairsOrder(ps[..n]);
      KeysSnoc(ps);
      assert Keys(ps) == ks + [key];
      forall i | 0 <= i < |d.order|
        ensures i < |d0.order| ==> d.order[i] == d0.order[i] && FirstOf(Keys(ps), d.order[i]) == FirstOf(ks, d0.order[i])
        ensures i < |d0.order| ==> FirstOf(ks, d0.order[i]) < n
        ensures i == |d0.order| ==> FirstOf(Keys(ps), d.order[i]) == n
      {
        FirstOfSnoc(ks, key, d.order[i]);
      }
      forall i, j | 0 <= i < j < |d.order|
        ensures FirstOf(Keys(ps), d.order[i]) < FirstOf(Keys(ps), d.order[j])
      {
        if j < |d0.order| {
          assert FirstOf(ks, d0.order[i]) < FirstOf(ks, d0.order[j]);
        }
      }
    }
  }
}

=== FILE: download.dfy ===
/** `download_file` and the download loop of `process_following_user`,
    over a file system given as a map from path to contents. */
module Download {
  import opened Wrappers
  import opened Seqs
  import opened Dicts
  import opened Entities
  import opened Attachments
  import opened Naming
  import opened Following
  import opened Timeline

  type Bytes = seq<bv8>

  /** The files on disk, by path. */
  type FileSystem = map<string, Bytes>

  /** What streaming a URL yields: the whole body (whatever the status
      code), a body cut short by an exception after the file was opened, or
      an exception before anything was written. */
  datatype Fetched = Body(data: Bytes) | Interrupted(partial: Bytes) | Refused

  /** The file system after one download, whether the URL was requested,
      and whether the run goes on. */
  datatype Step = Step(fs: FileSystem, fetched: bool, outcome: Outcome<()>)

  /** A file name `open(folder + name, 'wb')` can create inside the account's
      folder: one without a path separator. A separator names a sub-folder
      that the program never creates, so the open raises. */
  predicate Openable(name: string, posix: bool) {
    forall i :: 0 <= i < |name| ==> name[i] !in Separators(posix)
  }

  /** The bytes a request leaves in a file opened for them: the whole body,
      or what arrived before the stream broke; none for a refused request. */
  function Received(f: Fetched): Option<Bytes> {
    match f
    case Body(d) => Some(d)
    case Interrupted(d) => Some(d)
    case Refused => None
  }

  /** `download_file(file, folder)` with the network given as `fetch` and
      `os.name == "posix"` as `posix`. */
  function DownloadFile(e: MediaEntry, folder: string, posix: bool, fs: FileSystem, fetch: Url -> Fetched): (r: Step)
    // An existing file is kept as it is and nothing is requested.
    ensures folder + e.filename in fs ==> r == Step(fs, false, Ok(()))
    // Otherwise the URL is requested and no path but the target changes.
    ensures folder + e.filename !in fs ==> r.fetched
    ensures forall p :: p != folder + e.filename ==> (p in r.fs <==> p in fs)
    ensures forall p :: p in fs ==> p in r.fs && r.fs[p] == fs[p]
    // The target is written when it can be opened and bytes arrived, with
    // exactly those bytes.
    ensures folder + e.filename !in fs ==>
      && (folder + e.filename in r.fs <==> Openable(e.filename, posix) && Received(fetch(e.url)).Some?)
      && (folder + e.filename in r.fs ==> r.fs[folder + e.filename] == Received(fetch(e.url)).value)
    // The run goes on exactly when the whole body arrived and was written.
    ensures folder + e.filename !in fs ==>
      (r.outcome.Ok? <==> fetch(e.url).Body? && Openable(e.filename, posix))
    ensures r.outcome.Ok? ==> folder + e.filename in r.fs
    ensures r.outcome.Exit? ==> r.outcome.reason == DownloadFailed
  {
    var path := folder + e.filename;
    if path in fs then Step(fs, false, Ok(()))
    else match fetch(e.url)
      case Refused => Step(fs, true, Exit(DownloadFailed))
      case Body(d) =>
        if Openable(e.filename, posix) then Step(fs[path := d], true, Ok(()))
        else Step(fs, true, Exit(DownloadFailed))
      case Interrupted(d) =>
        if Openable(e.filename, posix) then Step(fs[path := d], true, Exit(DownloadFailed))
        else Step(fs, true, Exit(DownloadFailed))
  }

  /** Downloading the same attachment twice leaves the disk as downloading
      it once, and a completed download is never requested again. */
  lemma DownloadFileTwice(e: MediaEntry, folder: string, posix: bool, fs: FileSystem, fetch: Url -> Fetched)
    ensures DownloadFile(e, folder, posix, DownloadFile(e, folder, posix, fs, fetch).fs, fetch).fs
         == DownloadFile(e, folder, posix, fs, fetch).fs
    ensures DownloadFile(e, folder, posix, fs, fetch).outcome.Ok? ==>
      DownloadFile(e, folder, posix, DownloadFile(e, folder, posix, fs, fetch).fs, fetch)
        == Step(DownloadFile(e, folder, posix, fs, fetch).fs, false, Ok(()))
  {
  }

  /** A file left half-written by an interrupted download is skipped by
      every later run: existence alone decides, so it is never repaired. */
  lemma PartialFileKept(e: MediaEntry, folder: string, posix: bool, fs: FileSystem,
                         fetch: Url -> Fetched, later: Url -> Fetched)
    requires folder + e.filename !in fs && fetch(e.url).Interrupted? && Openable(e.filename, posix)
    ensures var r := DownloadFile(e, folder, posix, DownloadFile(e, folder, posix, fs, fetch).fs, later);
      !r.fetched && r.fs[folder + e.filename] == fetch(e.url).partial
  {
  }

  /** The media dictionaries of every post are themselves well formed. */
  predicate WellFormed(media: Dict<PostEntry>) {
    && media.Valid()
    && forall k :: k in media.entries ==> media.entries[k].media.Valid()
  }

  /** The attachments of one post in the order `post.keys()` yields them. */
  function PostQueue(e: PostEntry): (q: seq<MediaEntry>)
    requires e.media.Valid()
    ensures |q| == |e.media.order|
    ensures forall i :: 0 <= i < |q| ==> q[i] == e.media.entries[e.media.order[i]]
    // One position per attachment: exactly the post's attachments, as many
    // as it has.
    ensures |q| == |e.media.entries|
    ensures forall x :: x in q <==> exists m :: m in e.media.entries && e.media.entries[m] == x
  {
    OrderSize(e.media);
    var q := seq(|e.media.order|, i requires 0 <= i < |e.media.order| => e.media.entries[e.media.order[i]]);
    assert forall m :: m in e.media.entries ==> e.media.entries[m] in q by {
      forall m | m in e.media.entries ensures e.media.entries[m] in q {
        var i :| 0 <= i < |e.media.order| && e.media.order[i] == m;
        assert q[i] == e.media.entries[m];
      }
    }
    q
  }

  /** The attachments of the posts named by `keys`, post by post. */
  function QueueOf(keys: seq<string>, entries: map<string, PostEntry>): seq<MediaEntry>
    requires forall i :: 0 <= i < |keys| ==> keys[i] in entries && entries[keys[i]].media.Valid()
  {
    if keys == [] then []
    else PostQueue(entries[keys[0]]) + QueueOf(keys[1..], entries)
  }

  /** The attachments in the order the nested loop visits them. */
  function Queue(media: Dict<PostEntry>): seq<MediaEntry>
    requires WellFormed(media)
  {
    QueueOf(media.order, media.entries)
  }

  lemma {:induction false} QueueOfSpec(keys: seq<string>, entries: map<string, PostEntry>)
    requires forall i :: 0 <= i < |keys| ==> keys[i] in entries && entries[keys[i]].media.Valid()
    ensures forall e :: e in QueueOf(keys, entries) ==>
      exists k, m :: k in keys && m in entries[k].media.entries && e == entries[k].media.entries[m]
    ensures forall k, m :: k in keys && m in entries[k].media.entries ==>
      entries[k].media.entries[m] in QueueOf(keys, entries)
  {
    if keys != [] {
      QueueOfSpec(keys[1..], entries);
      var q := PostQueue(entries[keys[0]]);
      assert QueueOf(keys, entries) == q + QueueOf(keys[1..], entries);
      forall e | e in q
        ensures exists k, m :: k in keys && m in entries[k].media.entries && e == entries[k].media.entries[m]
      {
        var i :| 0 <= i < |q| && q[i] == e;
        var m := entries[keys[0]].media.order[i];
        assert keys[0] in keys && m in entries[keys[0]].media.entries;
      }
      forall k, m | k in keys && m in entries[k].media.entries
        ensures entries[k].media.entries[m] in QueueOf(keys, entries)
      {
        if k == keys[0] {
          var media := entries[k].media;
          var i :| 0 <= i < |media.order| && media.order[i] == m;
          assert q[i] == media.entries[m];
        } else {
          assert k in keys[1..];
        }
      }
    }
  }

  /** The loop visits every attachment of every post, and nothing else. */
  lemma QueueSpec(media: Dict<PostEntry>)
    requires WellFormed(media)
    ensures forall e :: e in Queue(media) ==>
      exists k, m :: k in media.entries && m in media.entries[k].media.entries && e == media.entries[k].media.entries[m]
    ensures forall k, m :: k in media.entries && m in media.entries[k].media.entries ==>
      media.entries[k].media.entries[m] in Queue(media)
  {
    QueueOfSpec(media.order, media.entries);
  }

  /** The attachment `e` ends up on disk when the loop reaches it: its file
      was already there, or the whole body arrives and its name can be
      opened. */
  predicate Retrievable(e: MediaEntry, folder: string, posix: bool, fs0: FileSystem, fetch: Url -> Fetched) {
    folder + e.filename in fs0 || (fetch(e.url).Body? && Openable(e.filename, posix))
  }

  /** The paths the attachments of `queue` are saved to, in order. */
  function Targets(queue: seq<MediaEntry>, folder: string): (ts: seq<string>)
    ensures |ts| == |queue|
    ensures forall i :: 0 <= i < |queue| ==> ts[i] == folder + queue[i].filename
  {
    seq(|queue|, i requires 0 <= i < |queue| => folder + queue[i].filename)
  }

  /** Files of `fs0` are still in `fs`, unchanged. */
  ghost predicate Kept(fs0: FileSystem, fs: FileSystem) {
    forall p :: p in fs0 ==> p in fs && fs[p] == fs0[p]
  }

  /** Every file of `fs` not in `fs0` is the target of one of the first `n`
      attachments and holds the bytes received for the first attachment
      saved to it. */
  ghost predicate Traced(queue: seq<MediaEntry>, folder: string, fs0: FileSystem, fetch: Url -> Fetched,
                         n: nat, fs: FileSystem)
    requires n <= |queue|
  {
    forall p :: p in fs && p !in fs0 ==>
      && p in Targets(queue, folder)[..n]
      && Received(fetch(queue[FirstOf(Targets(queue, folder), p)].url)) == Some(fs[p])
  }

  /** The first `n` attachments are on disk. */
  ghost predicate Done(queue: seq<MediaEntry>, folder: string, n: nat, fs: FileSystem)
    requires n <= |queue|
  {
    forall j :: 0 <= j < n ==> folder + queue[j].filename in fs
  }

  /** One turn of the download loop keeps the files already there, and a
      file it writes is traced to the attachment it is for. */
  lemma StepTraced(queue: seq<MediaEntry>, folder: string, posix: bool, fs0: FileSystem, fetch: Url -> Fetched,
                   i: nat, fs: FileSystem)
    requires i < |queue|
    requires Kept(fs0, fs) && Traced(queue, folder, fs0, fetch, i, fs) && Done(queue, folder, i, fs)
    ensures Kept(fs0, DownloadFile(queue[i], folder, posix, fs, fetch).fs)
    ensures Traced(queue, folder, fs0, fetch, i + 1, DownloadFile(queue[i], folder, posix, fs, fetch).fs)
  {
    var targets := Targets(queue, folder);
    var fs' := DownloadFile(queue[i], folder, posix, fs, fetch).fs;
    PrefixGrows(targets, i);
    forall p | p in fs' && p !in fs0
      ensures p in targets[..i + 1] && Received(fetch(queue[FirstOf(targets, p)].url)) == Some(fs'[p])
    {
      if p in fs {
        assert fs'[p] == fs[p];
      } else {
        assert p == targets[i];
        NewTarget(targets, i, fs);
      }
    }
  }

  /** One turn of the download loop keeps what the loop has established. */
  lemma DownloadStep(queue: seq<MediaEntry>, folder: string, posix: bool, fs0: FileSystem, fetch: Url -> Fetched,
                     i: nat, fs: FileSystem)
    requires i < |queue|
    requires Kept(fs0, fs) && Traced(queue, folder, fs0, fetch, i, fs) && Done(queue, folder, i, fs)
    ensures var step := DownloadFile(queue[i], folder, posix, fs, fetch);
      && Kept(fs0, step.fs)
      && Traced(queue, folder, fs0, fetch, i + 1, step.fs)
      && (step.outcome.Ok? ==> Done(queue, folder, i + 1, step.fs))
      && (step.fetched ==> queue[i].url in MissingUrls(queue, folder, fs0))
      && (folder + queue[i].filename in fs0 ==> step == Step(fs, false, Ok(())))
  {
    StepTraced(queue, folder, posix, fs0, fetch, i, fs);
  }

  /** One turn of the download loop requests attachment `i` exactly when its
      target is new, and gets past it exactly when it passes; otherwise the
      loop stops there. */
  lemma StepOutcome(queue: seq<MediaEntry>, folder: string, posix: bool, fs0: FileSystem, fetch: Url -> Fetched,
                    i: nat, fs: FileSystem)
    requires i < |queue|
    requires Kept(fs0, fs) && Traced(queue, folder, fs0, fetch, i, fs) && Done(queue, folder, i, fs)
    requires PassedUpTo(queue, folder, posix, fs0, fetch, i)
    ensures var step := DownloadFile(queue[i], folder, posix, fs, fetch);
      && (step.fetched <==> Fresh(queue, folder, fs0, i))
      && (step.outcome.Ok? <==> Passes(queue, folder, posix, fs0, fetch, i))
      && (step.outcome.Exit? ==> StoppedAt(queue, folder, posix, fs0, fetch, step.fs, i))
  {
    StepFresh(queue, folder, fs0, fetch, i, fs);
  }

  /** When the loop reaches attachment `i`, its target is on disk exactly
      when it was there at the start or an earlier attachment aims at it. */
  lemma StepFresh(queue: seq<MediaEntry>, folder: string, fs0: FileSystem, fetch: Url -> Fetched,
                  i: nat, fs: FileSystem)
    requires i < |queue|
    requires Kept(fs0, fs) && Traced(queue, folder, fs0, fetch, i, fs) && Done(queue, folder, i, fs)
    ensures folder + queue[i].filename !in fs <==> Fresh(queue, folder, fs0, i)
  {
    var targets := Targets(queue, folder);
    var t := targets[i];
    if t in targets[..i] {
      var j :| 0 <= j < i && targets[..i][j] == t;
      assert targets[j] == t;
    }
  }

  /** What the download loop promises about the disk `fs`, the URLs
      `fetched` and the `outcome` it ends with, starting from `fs0`. */
  ghost predicate DownloadAllSpec(queue: seq<MediaEntry>, folder: string, posix: bool, fs0: FileSystem,
                                  fetch: Url -> Fetched, fs: FileSystem, fetched: seq<Url>, outcome: Outcome<()>) {
    // Files already on disk are never touched.
    && Kept(fs0, fs)
    // Every new file is a target, and holds the bytes received for the
    // first attachment saved to it.
    && (forall p :: p in fs && p !in fs0 ==>
          p in Targets(queue, folder) && Received(fetch(queue[FirstOf(Targets(queue, folder), p)].url)) == Some(fs[p]))
    // A completed loop leaves every attachment on disk.
    && (outcome.Ok? ==> forall i :: 0 <= i < |queue| ==> folder + queue[i].filename in fs)
    // The loop completes whenever every attachment is retrievable ...
    && ((forall i :: 0 <= i < |queue| ==> Retrievable(queue[i], folder, posix, fs0, fetch)) ==> outcome.Ok?)
    // More precisely, it completes exactly when it gets past every
    // attachment, and then it requested the fresh ones, in order ...
    && (outcome.Ok? <==> PassedUpTo(queue, folder, posix, fs0, fetch, |queue|))
    && (outcome.Ok? ==> fetched == Requested(queue, folder, fs0, |queue|))
    // ... and otherwise stops at the first attachment it cannot get past:
    // its URL was the last request, nothing after it was requested, and
    // every new file is the target of an attachment up to it.
    && (outcome.Exit? ==>
          && outcome.reason == DownloadFailed && fetched != []
          && exists i ::
               && StoppedAt(queue, folder, posix, fs0, fetch, fs, i)
               && fetched[|fetched| - 1] == queue[i].url
               && fetched == Requested(queue, folder, fs0, i + 1)
               && NewWithin(queue, folder, fs0, fs, i + 1))
    // Only attachments missing from the disk are requested.
    && (forall j :: 0 <= j < |fetched| ==> fetched[j] in MissingUrls(queue, folder, fs0))
    // With everything already on disk, nothing is requested or written.
    && ((forall i :: 0 <= i < |queue| ==> folder + queue[i].filename in fs0) ==>
          fs == fs0 && fetched == [] && outcome.Ok?)
  }

  /** The loop invariant of `DownloadAll` after the first `i` attachments:
      nothing old touched, every new file traced to its first attachment,
      the first `i` attachments on disk, only missing attachments requested,
      and nothing done when everything was already on disk. */
  ghost predicate Progress(queue: seq<MediaEntry>, folder: string, posix: bool, fs0: FileSystem,
                           fetch: Url -> Fetched, i: nat, fs: FileSystem, fetched: seq<Url>) {
    && i <= |queue|
    && Kept(fs0, fs) && Traced(queue, folder, fs0, fetch, i, fs) && Done(queue, folder, i, fs)
    && PassedUpTo(queue, folder, posix, fs0, fetch, i)
    && fetched == Requested(queue, folder, fs0, i)
    && (forall j :: 0 <= j < |fetched| ==> fetched[j] in MissingUrls(queue, folder, fs0))
    && ((forall j :: 0 <= j < |queue| ==> folder + queue[j].filename in fs0) ==> fs == fs0 && fetched == [])
  }

  /** One turn of the loop: a successful download keeps the invariant one
      attachment further on; a failed one ends the loop as promised. */
  lemma Advance(queue: seq<MediaEntry>, folder: string, posix: bool, fs0: FileSystem, fetch: Url -> Fetched,
                i: nat, fs: FileSystem, fetched: seq<Url>)
    requires i < |queue| && Progress(queue, folder, posix, fs0, fetch, i, fs, fetched)
    ensures var step := DownloadFile(queue[i], folder, posix, fs, fetch);
      && (step.fetched && step.outcome.Ok? ==>
            Progress(queue, folder, posix, fs0, fetch, i + 1, step.fs, fetched + [queue[i].url]))
      && (!step.fetched && step.outcome.Ok? ==> Progress(queue, folder, posix, fs0, fetch, i + 1, step.fs, fetched))
      && (step.fetched && step.outcome.Exit? ==>
            DownloadAllSpec(queue, folder, posix, fs0, fetch, step.fs, fetched + [queue[i].url], step.outcome))
      && (!step.fetched && step.outcome.Exit? ==>
            DownloadAllSpec(queue, folder, posix, fs0, fetch, step.fs, fetched, step.outcome))
  {
    var step := DownloadFile(queue[i], folder, posix, fs, fetch);
    var fetched' := if step.fetched then fetched + [queue[i].url] else fetched;
    DownloadStep(queue, folder, posix, fs0, fetch, i, fs);
    StepOutcome(queue, folder, posix, fs0, fetch, i, fs);
    if step.outcome.Exit? {
      Stopped(queue, folder, posix, fs0, fetch, step.fs, fetched', i);
    }
  }

  /** The loop starts with nothing done. */
  lemma Started(queue: seq<MediaEntry>, folder: string, posix: bool, fs0: FileSystem, fetch: Url -> Fetched)
    ensures Progress(queue, folder, posix, fs0, fetch, 0, fs0, [])
  {
  }

  /** The loop ran to its end. */
  lemma Finished(queue: seq<MediaEntry>, folder: string, posix: bool, fs0: FileSystem, fetch: Url -> Fetched,
                 fs: FileSystem, fetched: seq<Url>)
    requires Progress(queue, folder, posix, fs0, fetch, |queue|, fs, fetched)
    ensures DownloadAllSpec(queue, folder, posix, fs0, fetch, fs, fetched, Ok(()))
  {
    assert Targets(queue, folder)[..|queue|] == Targets(queue, folder);
  }

  /** The loop stopped at attachment `i`, whose URL was the last request. */
  lemma Stopped(queue: seq<MediaEntry>, folder: string, posix: bool, fs0: FileSystem, fetch: Url -> Fetched,
                fs: FileSystem, fetched: seq<Url>, i: nat)
    requires i < |queue|
    requires Kept(fs0, fs) && Traced(queue, folder, fs0, fetch, i + 1, fs)
    requires StoppedAt(queue, folder, posix, fs0, fetch, fs, i)
    requires fetched == Requested(queue, folder, fs0, i + 1)
    requires forall j :: 0 <= j < |fetched| ==> fetched[j] in MissingUrls(queue, folder, fs0)
    ensures DownloadAllSpec(queue, folder, posix, fs0, fetch, fs, fetched, Exit(DownloadFailed))
  {
    PrefixIn(Targets(queue, folder), i + 1);
    assert !Passes(queue, folder, posix, fs0, fetch, i);
  }

  lemma PrefixIn<T>(s: seq<T>, n: nat)
    requires n <= |s|
    ensures forall x :: x in s[..n] ==> x in s
  {
    forall x | x in s[..n] ensures x in s {
      var j :| 0 <= j < n && s[..n][j] == x;
      assert s[j] == x;
    }
  }

  /** Where the download loop ends: the disk, the URLs requested, and the
      outcome. */
  datatype LoopEnd = LoopEnd(fs: FileSystem, fetched: seq<Url>, outcome: Outcome<()>)

  /** The download loop from attachment `i` on, with disk `fs` and the URLs
      `fetched` so far: one `download_file` per attachment, stopping at the
      first that ends the run. */
  function Loop(queue: seq<MediaEntry>, folder: string, posix: bool, fetch: Url -> Fetched,
                i: nat, fs: FileSystem, fetched: seq<Url>): LoopEnd
    requires i <= |queue|
    decreases |queue| - i
  {
    if i == |queue| then LoopEnd(fs, fetched, Ok(()))
    else
      var step := DownloadFile(queue[i], folder, posix, fs, fetch);
      var fetched' := if step.fetched then fetched + [queue[i].url] else fetched;
      if step.outcome.Exit? then LoopEnd(step.fs, fetched', step.outcome)
      else Loop(queue, folder, posix, fetch, i + 1, step.fs, fetched')
  }

  /** The loop, run from any point the invariant holds at, keeps every
      promise. */
  lemma {:induction false} LoopSpec(queue: seq<MediaEntry>, folder: string, posix: bool, fs0: FileSystem,
                                    fetch: Url -> Fetched, i: nat, fs: FileSystem, fetched: seq<Url>)
    requires i <= |queue| && Progress(queue, folder, posix, fs0, fetch, i, fs, fetched)
    ensures var r := Loop(queue, folder, posix, fetch, i, fs, fetched);
      DownloadAllSpec(queue, folder, posix, fs0, fetch, r.fs, r.fetched, r.outcome)
    decreases |queue| - i
  {
    if i == |queue| {
      Finished(queue, folder, posix, fs0, fetch, fs, fetched);
    } else {
      Advance(queue, folder, posix, fs0, fetch, i, fs, fetched);
      var step := DownloadFile(queue[i], folder, posix, fs, fetch);
      var fetched' := if step.fetched then fetched + [queue[i].url] else fetched;
      if step.outcome.Ok? {
        LoopSpec(queue, folder, posix, fs0, fetch, i + 1, step.fs, fetched');
      }
    }
  }

  /** The body of the download loop for a queue of attachments and a folder
      path: downloads them one at a time and stops at the first failure.
      Returns the file system, the URLs requested and the outcome. */
  method DownloadAll(queue: seq<MediaEntry>, folder: string, posix: bool, fs0: FileSystem, fetch: Url -> Fetched)
    returns (fs: FileSystem, fetched: seq<Url>, outcome: Outcome<()>)
    ensures LoopEnd(fs, fetched, outcome) == Loop(queue, folder, posix, fetch, 0, fs0, [])
    ensures DownloadAllSpec(queue, folder, posix, fs0, fetch, fs, fetched, outcome)
  {
    fs := fs0;
    fetched := [];
    var i := 0;
    while i < |queue|
      invariant i <= |queue|
      invariant Loop(queue, folder, posix, fetch, i, fs, fetched) == Loop(queue, folder, posix, fetch, 0, fs0, [])
    {
      var step := DownloadFile(queue[i], folder, posix, fs, fetch);
      if step.fetched {
        fetched := fetched + [queue[i].url];
      }
      fs := step.fs;
      if step.outcome.Exit? {
        outcome := step.outcome;
        break;
      }
      i := i + 1;
    }
    if i == |queue| {
      outcome := Ok(());
    }
    Started(queue, folder, posix, fs0, fetch);
    LoopSpec(queue, folder, posix, fs0, fetch, 0, fs0, []);
  }

  /** The loop downloads attachment `j` when it reaches it: its target was
      not on disk at the start, and no earlier attachment aims at it. */
  predicate Fresh(queue: seq<MediaEntry>, folder: string, fs0: FileSystem, j: nat)
    requires j < |queue|
  {
    && Targets(queue, folder)[j] !in fs0
    && Targets(queue, folder)[j] !in Targets(queue, folder)[..j]
  }

  /** The loop gets past attachment `j`: it is skipped, or its whole body
      arrives and its name can be opened. */
  predicate Passes(queue: seq<MediaEntry>, folder: string, posix: bool, fs0: FileSystem,
                   fetch: Url -> Fetched, j: nat)
    requires j < |queue|
  {
    !Fresh(queue, folder, fs0, j) || (fetch(queue[j].url).Body? && Openable(queue[j].filename, posix))
  }

  /** The loop gets past each of the first `n` attachments. */
  ghost predicate PassedUpTo(queue: seq<MediaEntry>, folder: string, posix: bool, fs0: FileSystem,
                             fetch: Url -> Fetched, n: nat)
    requires n <= |queue|
  {
    forall j :: 0 <= j < n ==> Passes(queue, folder, posix, fs0, fetch, j)
  }

  /** The URLs the loop requests for the first `n` attachments: those of the
      fresh ones, in order. Each is the URL of an attachment missing from
      the disk. */
  function Requested(queue: seq<MediaEntry>, folder: string, fs0: FileSystem, n: nat): (urls: seq<Url>)
    requires n <= |queue|
    ensures |urls| <= n
    ensures forall j :: 0 <= j < |urls| ==> urls[j] in MissingUrls(queue, folder, fs0)
  {
    if n == 0 then []
    else
      var k := n - 1;
      Requested(queue, folder, fs0, k) + (if Fresh(queue, folder, fs0, k) then [queue[k].url] else [])
  }

  /** Every file of `fs` not in `fs0` is the target of one of the first `n`
      attachments. */
  ghost predicate NewWithin(queue: seq<MediaEntry>, folder: string, fs0: FileSystem, fs: FileSystem, n: nat)
    requires n <= |queue|
  {
    forall p :: p in fs && p !in fs0 ==> p in Targets(queue, folder)[..n]
  }

  /** The URLs of the attachments whose files are not on the disk `fs0`. */
  function MissingUrls(queue: seq<MediaEntry>, folder: string, fs0: FileSystem): set<Url> {
    set i | 0 <= i < |queue| && folder + queue[i].filename !in fs0 :: queue[i].url
  }

  /** The loop stopped at attachment `i`: it got past every attachment
      before it, which are all on disk in `fs`; attachment `i` was fresh and
      is not retrievable. */
  ghost predicate StoppedAt(queue: seq<MediaEntry>, folder: string, posix: bool, fs0: FileSystem,
                            fetch: Url -> Fetched, fs: FileSystem, i: int) {
    && 0 <= i < |queue|
    && PassedUpTo(queue, folder, posix, fs0, fetch, i)
    && Fresh(queue, folder, fs0, i)
    && !Retrievable(queue[i], folder, posix, fs0, fetch)
    && forall j :: 0 <= j < i ==> folder + queue[j].filename in fs
  }

  /** A target that none of the first `i` targets equals, reached at `i`,
      is first aimed at by attachment `i`. */
  lemma NewTarget(targets: seq<string>, i: nat, fs: FileSystem)
    requires i < |targets|
    requires forall j :: 0 <= j < i ==> targets[j] in fs
    requires targets[i] !in fs
    ensures FirstOf(targets, targets[i]) == i
  {
  }

  lemma PrefixGrows(targets: seq<string>, i: nat)
    requires i < |targets|
    ensures forall p :: p in targets[..i] ==> p in targets[..i + 1]
    ensures targets[i] in targets[..i + 1]
  {
    assert targets[..i + 1] == targets[..i] + [targets[i]];
  }

  /** Every post entry of a resolved timeline has a well-formed media
      dictionary. */
  lemma AttachmentDataWellFormed(timeline: seq<Page>)
    requires AttachmentData(timeline).Ok?
    ensures WellFormed(AttachmentData(timeline).value)
  {
    var media := AttachmentData(timeline).value;
    forall k | k in media.entries ensures media.entries[k].media.Valid() {
      AttachmentDataEntry(timeline, k);
    }
  }

  /** Every attachment of `media` is on disk under `folder`. */
  ghost predicate AllOnDisk(media: Dict<PostEntry>, folder: string, fs: FileSystem) {
    forall k, m :: k in media.entries && m in media.entries[k].media.entries ==>
      folder + media.entries[k].media.entries[m].filename in fs
  }

  /** The folder every file of `account` goes to. */
  function AccountFolder(account: Followed, posix: bool): string {
    FolderPath(FolderName(account.account, account.id), posix)
  }

  /** The account's timeline was walked to its end, resolved, and every
      attachment is on disk in the account's folder. */
  ghost predicate Archived(account: Followed, replies: seq<PageReply>, posix: bool, fs: FileSystem) {
    && HasStop(replies)
    && replies[StopIndex(replies)].Posts?
    && AttachmentData(Pages(replies)).Ok?
    && AllOnDisk(AttachmentData(Pages(replies)).value, AccountFolder(account, posix), fs)
  }

  /** Every attachment of `media` is retrievable into `folder`. */
  ghost predicate AllRetrievable(media: Dict<PostEntry>, folder: string, posix: bool, fs: FileSystem,
                                 fetch: Url -> Fetched) {
    forall k, m :: k in media.entries && m in media.entries[k].media.entries ==>
      Retrievable(media.entries[k].media.entries[m], folder, posix, fs, fetch)
  }

  /** Nothing can go wrong for `account` when the disk holds at least `fs`:
      the walk ends on an empty page, every timestamp has a date, and every
      attachment is retrievable. */
  ghost predicate Healthy(account: Followed, replies: seq<PageReply>, posix: bool, fs: FileSystem,
                          fetch: Url -> Fetched) {
    && HasStop(replies)
    && replies[StopIndex(replies)].Posts?
    && AttachmentData(Pages(replies)).Ok?
    && AllRetrievable(AttachmentData(Pages(replies)).value, AccountFolder(account, posix), posix, fs, fetch)
  }

  /** `bytes` at path `p` were written for the attachment `e` saved under
      `folder`: `p` is its target and `bytes` what its request delivered. */
  ghost predicate WrittenFor(e: MediaEntry, folder: string, fetch: Url -> Fetched, p: string, bytes: Bytes) {
    folder + e.filename == p && Received(fetch(e.url)) == Some(bytes)
  }

  /** `bytes` at path `p` were written for one of the attachments resolved
      from the account's timeline. */
  ghost predicate Sourced(account: Followed, replies: seq<PageReply>, posix: bool, fetch: Url -> Fetched,
                          p: string, bytes: Bytes) {
    && HasStop(replies)
    && AttachmentData(Pages(replies)).Ok?
    && var media := AttachmentData(Pages(replies)).value;
       exists k, m :: k in media.entries && m in media.entries[k].media.entries &&
         WrittenFor(media.entries[k].media.entries[m], AccountFolder(account, posix), fetch, p, bytes)
  }

  /** When every attachment of `media` is retrievable, so is every position
      of its queue. */
  lemma QueueRetrievable(media: Dict<PostEntry>, folder: string, posix: bool, fs0: FileSystem, fetch: Url -> Fetched)
    requires WellFormed(media)
    requires AllRetrievable(media, folder, posix, fs0, fetch)
    ensures forall i :: 0 <= i < |Queue(media)| ==> Retrievable(Queue(media)[i], folder, posix, fs0, fetch)
  {
    var queue := Queue(media);
    QueueSpec(media);
    forall i | 0 <= i < |queue| ensures Retrievable(queue[i], folder, posix, fs0, fetch) {
      assert queue[i] in queue;
    }
  }

  /** When every position of the queue is on disk, so is every attachment
      of `media`. */
  lemma QueueOnDisk(media: Dict<PostEntry>, folder: string, fs: FileSystem)
    requires WellFormed(media)
    requires forall i :: 0 <= i < |Queue(media)| ==> folder + Queue(media)[i].filename in fs
    ensures AllOnDisk(media, folder, fs)
  {
    var queue := Queue(media);
    QueueSpec(media);
    forall k, m | k in media.entries && m in media.entries[k].media.entries
      ensures folder + media.entries[k].media.entries[m].filename in fs
    {
      var e := media.entries[k].media.entries[m];
      assert e in queue;
      var i :| 0 <= i < |queue| && queue[i] == e;
    }
  }

  /** Two attachments of one post have different filenames. */
  lemma SamePostNames(entries: map<string, PostEntry>, k: string, i: nat, j: nat)
    requires KeyedNames(entries)
    requires k in entries && entries[k].media.Valid()
    requires i < j < |entries[k].media.order|
    ensures PostQueue(entries[k])[i].filename != PostQueue(entries[k])[j].filename
  {
    var media := entries[k].media;
    NamesDetermineKeys(entries, k, media.order[i], k, media.order[j]);
  }

  /** Attachments of two different posts have different filenames. */
  lemma OtherPostNames(entries: map<string, PostEntry>, k: string, i: nat, k': string, m': string)
    requires KeyedNames(entries)
    requires k in entries && entries[k].media.Valid() && i < |entries[k].media.order|
    requires k' in entries && m' in entries[k'].media.entries && k' != k
    ensures PostQueue(entries[k])[i].filename != entries[k'].media.entries[m'].filename
  {
    NamesDetermineKeys(entries, k, entries[k].media.order[i], k', m');
  }

  /** No two attachments of the queue share a filename when every file is
      named after the keys it is stored under. */
  lemma {:induction false} QueueOfDistinct(keys: seq<string>, entries: map<string, PostEntry>)
    requires forall i :: 0 <= i < |keys| ==> keys[i] in entries && entries[keys[i]].media.Valid()
    requires forall i, j :: 0 <= i < j < |keys| ==> keys[i] != keys[j]
    requires KeyedNames(entries)
    ensures forall i, j :: 0 <= i < j < |QueueOf(keys, entries)| ==>
      QueueOf(keys, entries)[i].filename != QueueOf(keys, entries)[j].filename
    decreases |keys|
  {
    if keys != [] {
      var k := keys[0];
      var q := PostQueue(entries[k]);
      var rest := QueueOf(keys[1..], entries);
      QueueOfDistinct(keys[1..], entries);
      var all: seq<MediaEntry> := q + rest;
      forall i, j | 0 <= i < j < |all| ensures all[i].filename != all[j].filename {
        if j < |q| {
          SamePostNames(entries, k, i, j);
        } else if i < |q| {
          var x := rest[j - |q|];
          assert x in rest;
          QueueOfSpec(keys[1..], entries);
          var k', m' :| k' in keys[1..] && m' in entries[k'].media.entries && x == entries[k'].media.entries[m'];
          OtherPostNames(entries, k, i, k', m');
        } else {
          var i', j' := i - |q|, j - |q|;
          assert rest[i'].filename != rest[j'].filename;
        }
      }
      assert QueueOf(keys, entries) == all;
    }
  }

  lemma QueueDistinct(media: Dict<PostEntry>)
    requires WellFormed(media) && KeyedNames(media.entries)
    ensures forall i, j :: 0 <= i < j < |Queue(media)| ==> Queue(media)[i].filename != Queue(media)[j].filename
  {
    QueueOfDistinct(media.order, media.entries);
  }

  /** With distinct filenames no attachment aims at an earlier one's target,
      so a loop that gets past every attachment found each retrievable. */
  lemma PassedRetrievable(queue: seq<MediaEntry>, folder: string, posix: bool, fs0: FileSystem, fetch: Url -> Fetched)
    requires forall i, j :: 0 <= i < j < |queue| ==> queue[i].filename != queue[j].filename
    requires PassedUpTo(queue, folder, posix, fs0, fetch, |queue|)
    ensures forall j :: 0 <= j < |queue| ==> Retrievable(queue[j], folder, posix, fs0, fetch)
  {
    var targets := Targets(queue, folder);
    forall i, j | 0 <= i < j < |queue| ensures targets[i] != targets[j] {
      assert targets[i][|folder|..] == queue[i].filename;
      assert targets[j][|folder|..] == queue[j].filename;
    }
    forall j | 0 <= j < |queue| ensures Retrievable(queue[j], folder, posix, fs0, fetch) {
      assert Passes(queue, folder, posix, fs0, fetch, j);
      assert targets[j] !in targets[..j] by {
        forall i | 0 <= i < j ensures targets[..j][i] != targets[j] {
          assert targets[..j][i] == targets[i];
        }
      }
    }
  }

  /** When every position of the queue is retrievable, so is every
      attachment of `media`. */
  lemma RetrievableAll(media: Dict<PostEntry>, folder: string, posix: bool, fs0: FileSystem, fetch: Url -> Fetched)
    requires WellFormed(media)
    requires forall j :: 0 <= j < |Queue(media)| ==> Retrievable(Queue(media)[j], folder, posix, fs0, fetch)
    ensures AllRetrievable(media, folder, posix, fs0, fetch)
  {
    var queue := Queue(media);
    QueueSpec(media);
    forall k, m | k in media.entries && m in media.entries[k].media.entries
      ensures Retrievable(media.entries[k].media.entries[m], folder, posix, fs0, fetch)
    {
      var e := media.entries[k].media.entries[m];
      assert e in queue;
      var j :| 0 <= j < |queue| && queue[j] == e;
    }
  }

  /** The download loop for the account stopped at attachment `i` of its
      queue, and wrote files only for the attachments up to it. */
  ghost predicate FailedAt(account: Followed, replies: seq<PageReply>, posix: bool, fs0: FileSystem,
                           fetch: Url -> Fetched, fs: FileSystem, i: int) {
    && HasStop(replies)
    && AttachmentData(Pages(replies)).Ok?
    && WellFormed(AttachmentData(Pages(replies)).value)
    && var queue := Queue(AttachmentData(Pages(replies)).value);
       var folder := AccountFolder(account, posix);
       && StoppedAt(queue, folder, posix, fs0, fetch, fs, i)
       && NewWithin(queue, folder, fs0, fs, i + 1)
  }

  /** What the download loop's outcome says about the account. */
  lemma AccountOutcome(account: Followed, replies: seq<PageReply>, posix: bool, fs0: FileSystem,
                       fetch: Url -> Fetched, fs: FileSystem, fetched: seq<Url>, outcome: Outcome<()>)
    requires HasStop(replies) && replies[StopIndex(replies)].Posts? && AttachmentData(Pages(replies)).Ok?
    requires WellFormed(AttachmentData(Pages(replies)).value)
    requires DownloadAllSpec(Queue(AttachmentData(Pages(replies)).value), AccountFolder(account, posix), posix,
                             fs0, fetch, fs, fetched, outcome)
    ensures outcome.Ok? ==> Healthy(account, replies, posix, fs0, fetch)
    ensures outcome.Exit? ==> exists i :: FailedAt(account, replies, posix, fs0, fetch, fs, i)
  {
    var media := AttachmentData(Pages(replies)).value;
    var queue := Queue(media);
    var folder := AccountFolder(account, posix);
    if outcome.Ok? {
      AttachmentDataNames(Pages(replies));
      QueueDistinct(media);
      PassedRetrievable(queue, folder, posix, fs0, fetch);
      RetrievableAll(media, folder, posix, fs0, fetch);
    } else {
      var i :| StoppedAt(queue, folder, posix, fs0, fetch, fs, i) && NewWithin(queue, folder, fs0, fs, i + 1);
      assert FailedAt(account, replies, posix, fs0, fetch, fs, i);
    }
  }

  /** One iteration of the loop of `process_following_user`: folder name,
      timeline, attachment data, then every download, for an account whose
      statuses endpoint answers its k-th fetch with `replies[k]`. */
  method ProcessAccount(account: Followed, replies: seq<PageReply>, posix: bool, fs0: FileSystem, fetch: Url -> Fetched)
    returns (fs: FileSystem, outcome: Outcome<()>)
    requires HasStop(replies)
    // Files already on disk are never touched.
    ensures forall p :: p in fs0 ==> p in fs && fs[p] == fs0[p]
    // Every new file lies in the account's folder.
    ensures forall p :: p in fs && p !in fs0 ==> AccountFolder(account, posix) <= p
    // ... and holds the bytes received for an attachment of the account.
    ensures forall p :: p in fs && p !in fs0 ==> Sourced(account, replies, posix, fetch, p, fs[p])
    ensures outcome.Ok? ==> Archived(account, replies, posix, fs)
    // The run goes on exactly when nothing can go wrong for the account.
    ensures Healthy(account, replies, posix, fs0, fetch) ==> outcome.Ok?
    ensures outcome.Ok? ==> Healthy(account, replies, posix, fs0, fetch)
    // A failed download stops the account at the first attachment the loop
    // cannot get past; files are written only for attachments up to it.
    ensures outcome == Exit(DownloadFailed) ==> exists i :: FailedAt(account, replies, posix, fs0, fetch, fs, i)
    ensures replies[StopIndex(replies)].ApiError? ==> outcome == Exit(ApiFailed) && fs == fs0
    ensures replies[StopIndex(replies)].Posts? && AttachmentData(Pages(replies)).Exit? ==>
      outcome == Exit(MalformedTimestamp) && fs == fs0
    ensures replies[StopIndex(replies)].Posts? && AttachmentData(Pages(replies)).Ok? ==>
      outcome.Ok? || outcome == Exit(DownloadFailed)
  {
    var folder := AccountFolder(account, posix);
    var timeline, cursors := GetTimeline(replies);
    if timeline.Exit? {
      return fs0, Exit(timeline.reason);
    }
    var data := AttachmentData(timeline.value);
    if data.Exit? {
      return fs0, Exit(data.reason);
    }
    var media := data.value;
    AttachmentDataWellFormed(timeline.value);
    var queue := Queue(media);
    var fetched;
    fs, fetched, outcome := DownloadAll(queue, folder, posix, fs0, fetch);
    if AllRetrievable(media, folder, posix, fs0, fetch) {
      QueueRetrievable(media, folder, posix, fs0, fetch);
    }
    if outcome.Ok? {
      QueueOnDisk(media, folder, fs);
    }
    NewFilesSourced(account, replies, posix, fs0, fetch, fs, fetched, outcome);
    AccountOutcome(account, replies, posix, fs0, fetch, fs, fetched, outcome);
  }

  /** The files the download loop adds for an account lie in its folder and
      hold the bytes received for one of its attachments. */
  lemma NewFilesSourced(account: Followed, replies: seq<PageReply>, posix: bool, fs0: FileSystem,
                        fetch: Url -> Fetched, fs: FileSystem, fetched: seq<Url>, outcome: Outcome<()>)
    requires HasStop(replies) && AttachmentData(Pages(replies)).Ok?
    requires WellFormed(AttachmentData(Pages(replies)).value)
    requires DownloadAllSpec(Queue(AttachmentData(Pages(replies)).value), AccountFolder(account, posix), posix,
                             fs0, fetch, fs, fetched, outcome)
    ensures forall p :: p in fs && p !in fs0 ==>
      AccountFolder(account, posix) <= p && Sourced(account, replies, posix, fetch, p, fs[p])
  {
    var media := AttachmentData(Pages(replies)).value;
    var queue := Queue(media);
    var folder := AccountFolder(account, posix);
    QueueSpec(media);
    forall p | p in fs && p !in fs0 ensures folder <= p && Sourced(account, replies, posix, fetch, p, fs[p]) {
      var i := FirstOf(Targets(queue, folder), p);
      assert p == folder + queue[i].filename;
      assert queue[i] in queue;
      var k, m :| k in media.entries && m in media.entries[k].media.entries && queue[i] == media.entries[k].media.entries[m];
      assert WrittenFor(media.entries[k].media.entries[m], folder, fetch, p, fs[p]);
    }
  }

  /** An account that is healthy on a disk stays healthy on a disk with more
      files: existing files are only ever skipped. */
  lemma HealthyGrows(account: Followed, replies: seq<PageReply>, posix: bool, fs: FileSystem, fs': FileSystem,
                     fetch: Url -> Fetched)
    requires forall p :: p in fs ==> p in fs'
    requires Healthy(account, replies, posix, fs, fetch)
    ensures Healthy(account, replies, posix, fs', fetch)
  {
  }

  /** The first `i` accounts of the follow dictionary are archived. */
  ghost predicate ArchivedUpTo(follows: Dict<Followed>, timelines: string -> seq<PageReply>, posix: bool,
                               i: nat, fs: FileSystem)
    requires follows.Valid() && i <= |follows.order|
  {
    forall j :: 0 <= j < i ==>
      Archived(follows.entries[follows.order[j]], timelines(follows.entries[follows.order[j]].id), posix, fs)
  }

  /** The loop of `process_following_user` over the follow dictionary, in
      its insertion order; the statuses endpoint answers the fetches for the
      account id `id` with `timelines(id)`. Returns how many accounts were
      done before the run ended. */
  method ProcessFollowing(follows: Dict<Followed>, timelines: string -> seq<PageReply>, posix: bool,
                          fs0: FileSystem, fetch: Url -> Fetched)
    returns (fs: FileSystem, done: nat, outcome: Outcome<()>)
    requires follows.Valid()
    requires forall k :: k in follows.entries ==> HasStop(timelines(follows.entries[k].id))
    ensures forall p :: p in fs0 ==> p in fs && fs[p] == fs0[p]
    // Every new file holds the bytes received for an attachment of a
    // followed account.
    ensures forall p :: p in fs && p !in fs0 ==> FromFollowed(follows, timelines, posix, fetch, p, fs[p])
    // The accounts before `done`, in iteration order, are archived.
    ensures done <= |follows.order| && ArchivedUpTo(follows, timelines, posix, done, fs)
    ensures outcome.Ok? <==> done == |follows.order|
    ensures outcome.Ok? ==> forall k :: k in follows.entries ==>
      Archived(follows.entries[k], timelines(follows.entries[k].id), posix, fs)
    // The run stops only at an account for which something goes wrong ...
    ensures outcome.Exit? ==>
      && done < |follows.order|
      && !Healthy(follows.entries[follows.order[done]], timelines(follows.entries[follows.order[done]].id), posix, fs0, fetch)
    // ... so it completes whenever nothing can go wrong for any account.
    ensures (forall k :: k in follows.entries ==>
      Healthy(follows.entries[k], timelines(follows.entries[k].id), posix, fs0, fetch)) ==> outcome.Ok?
    // The accounts after the stopping one are left alone: every new file
    // belongs to an account up to it.
    ensures outcome.Exit? ==>
      forall p :: p in fs && p !in fs0 ==> FromFirst(follows, timelines, posix, fetch, done + 1, p, fs[p])
  {
    fs := fs0;
    var i := 0;
    while i < |follows.order|
      invariant 0 <= i <= |follows.order|
      invariant forall p :: p in fs0 ==> p in fs && fs[p] == fs0[p]
      invariant ArchivedUpTo(follows, timelines, posix, i, fs)
      invariant forall p :: p in fs && p !in fs0 ==> FromFollowed(follows, timelines, posix, fetch, p, fs[p])
      invariant forall p :: p in fs && p !in fs0 ==> FromFirst(follows, timelines, posix, fetch, i, p, fs[p])
    {
      var account := follows.entries[follows.order[i]];
      var fs1, status := ProcessAccount(account, timelines(account.id), posix, fs, fetch);
      FromFollowedStep(follows, timelines, posix, fetch, i, fs0, fs, fs1);
      FromFirstStep(follows, timelines, posix, fetch, i, fs0, fs, fs1);
      if status.Exit? {
        if Healthy(account, timelines(account.id), posix, fs0, fetch) {
          HealthyGrows(account, timelines(account.id), posix, fs0, fs, fetch);
          assert false;
        }
        ArchivedKept(follows, timelines, posix, i, fs, fs1);
        return fs1, i, status;
      }
      ArchivedStep(follows, timelines, posix, i, fs, fs1);
      fs := fs1;
      i := i + 1;
    }
    done := i;
    outcome := Ok(());
    ArchivedAll(follows, timelines, posix, fs);
  }

  /** `bytes` at path `p` were written for an attachment of some followed
      account. */
  ghost predicate FromFollowed(follows: Dict<Followed>, timelines: string -> seq<PageReply>, posix: bool,
                               fetch: Url -> Fetched, p: string, bytes: Bytes) {
    exists k :: k in follows.entries && Sourced(follows.entries[k], timelines(follows.entries[k].id), posix, fetch, p, bytes)
  }

  /** `bytes` at path `p` were written for an attachment of one of the first
      `n` accounts of the follow dictionary. */
  ghost predicate FromFirst(follows: Dict<Followed>, timelines: string -> seq<PageReply>, posix: bool,
                            fetch: Url -> Fetched, n: nat, p: string, bytes: Bytes)
    requires follows.Valid() && n <= |follows.order|
  {
    exists j :: 0 <= j < n &&
      Sourced(follows.entries[follows.order[j]], timelines(follows.entries[follows.order[j]].id), posix, fetch, p, bytes)
  }

  /** Processing account `i` on top of `fs` leaves every new file traced to
      one of the first `i + 1` accounts. */
  lemma FromFirstStep(follows: Dict<Followed>, timelines: string -> seq<PageReply>, posix: bool,
                      fetch: Url -> Fetched, i: nat, fs0: FileSystem, fs: FileSystem, fs1: FileSystem)
    requires follows.Valid() && i < |follows.order|
    requires forall p :: p in fs0 ==> p in fs && fs[p] == fs0[p]
    requires forall p :: p in fs && p !in fs0 ==> FromFirst(follows, timelines, posix, fetch, i, p, fs[p])
    requires forall p :: p in fs ==> p in fs1 && fs1[p] == fs[p]
    requires var account := follows.entries[follows.order[i]];
      forall p :: p in fs1 && p !in fs ==> Sourced(account, timelines(account.id), posix, fetch, p, fs1[p])
    ensures forall p :: p in fs1 && p !in fs0 ==> FromFirst(follows, timelines, posix, fetch, i + 1, p, fs1[p])
  {
    forall p | p in fs1 && p !in fs0 ensures FromFirst(follows, timelines, posix, fetch, i + 1, p, fs1[p]) {
      if p in fs {
        var j :| 0 <= j < i &&
          Sourced(follows.entries[follows.order[j]], timelines(follows.entries[follows.order[j]].id), posix, fetch, p, fs[p]);
      }
    }
  }

  /** Processing account `i` on top of `fs` keeps every new file traced to a
      followed account. */
  lemma FromFollowedStep(follows: Dict<Followed>, timelines: string -> seq<PageReply>, posix: bool,
                         fetch: Url -> Fetched, i: nat, fs0: FileSystem, fs: FileSystem, fs1: FileSystem)
    requires follows.Valid() && i < |follows.order|
    requires forall p :: p in fs0 ==> p in fs && fs[p] == fs0[p]
    requires forall p :: p in fs && p !in fs0 ==> FromFollowed(follows, timelines, posix, fetch, p, fs[p])
    requires forall p :: p in fs ==> p in fs1 && fs1[p] == fs[p]
    requires var account := follows.entries[follows.order[i]];
      forall p :: p in fs1 && p !in fs ==> Sourced(account, timelines(account.id), posix, fetch, p, fs1[p])
    ensures forall p :: p in fs0 ==> p in fs1 && fs1[p] == fs0[p]
    ensures forall p :: p in fs1 && p !in fs0 ==> FromFollowed(follows, timelines, posix, fetch, p, fs1[p])
  {
    forall p | p in fs1 && p !in fs0 ensures FromFollowed(follows, timelines, posix, fetch, p, fs1[p]) {
      if p !in fs {
        var k := follows.order[i];
        assert k in follows.entries;
      }
    }
  }

  /** Adding files never undoes an archived account (only existence counts),
      so archiving account `i` extends the archived prefix by one. */
  lemma ArchivedStep(follows: Dict<Followed>, timelines: string -> seq<PageReply>, posix: bool, i: nat,
                     fs: FileSystem, fs': FileSystem)
    requires follows.Valid() && i < |follows.order|
    requires forall p :: p in fs ==> p in fs'
    requires ArchivedUpTo(follows, timelines, posix, i, fs)
    requires Archived(follows.entries[follows.order[i]], timelines(follows.entries[follows.order[i]].id), posix, fs')
    ensures ArchivedUpTo(follows, timelines, posix, i + 1, fs')
  {
  }

  /** A failed account keeps the files of the archived prefix. */
  lemma ArchivedKept(follows: Dict<Followed>, timelines: string -> seq<PageReply>, posix: bool, i: nat,
                     fs: FileSystem, fs': FileSystem)
    requires follows.Valid() && i <= |follows.order|
    requires forall p :: p in fs ==> p in fs'
    requires ArchivedUpTo(follows, timelines, posix, i, fs)
    ensures ArchivedUpTo(follows, timelines, posix, i, fs')
  {
  }

  lemma ArchivedAll(follows: Dict<Followed>, timelines: string -> seq<PageReply>, posix: bool, fs: FileSystem)
    requires follows.Valid()
    requires ArchivedUpTo(follows, timelines, posix, |follows.order|, fs)
    ensures forall k :: k in follows.entries ==>
      Archived(follows.entries[k], timelines(follows.entries[k].id), posix, fs)
  {
    forall k | k in follows.entries
      ensures Archived(follows.entries[k], timelines(follows.entries[k].id), posix, fs)
    {
      var j :| 0 <= j < |follows.order| && follows.order[j] == k;
    }
  }
}

=== FILE: entities.dfy ===
/** The records the downloader reads from the server, reduced to the fields
    it uses. */
module Entities {

  type Url = string

  /** An entry of the follow list, as decoded by `requests` from the JSON
      body: both fields are the raw JSON strings. */
  datatype Account = Account(acct: string, id: string)

  /** A media attachment of a post; Mastodon.py hands ids over as integers. */
  datatype Attachment = Attachment(id: nat, url: Url)

  /** A post. `createdAt` is the text `str(created_at)` gives. */
  datatype Post = Post(id: nat, createdAt: string, attachments: seq<Attachment>)

  /** One answer of the statuses endpoint: at most 40 posts, newest first. */
  type Page = seq<Post>

  /** The ids of a list of posts, in order. */
  function PostIds(posts: seq<Post>): seq<nat>
  {
    seq(|posts|, i requires 0 <= i < |posts| => posts[i].id)
  }

  /** The ids of a list of attachments, in order. */
  function AttachmentIds(atts: seq<Attachment>): seq<nat>
  {
    seq(|atts|, i requires 0 <= i < |atts| => atts[i].id)
  }
}

=== FILE: following.dfy ===
/** `get_following` and `parse_following`: collecting the accounts a user
    follows from a chain of HTTP responses linked by the `next` relation of
    their Link header field (section 3 of RFC 8288), then keying them by
    handle. */
module Following {
  import opened Wrappers
  import opened Text
  import opened Seqs
  import opened Dicts
  import opened Entities

  /** What one `requests.get` yields: an exception, or a response with its
      status verdict (`bool(response)`), its decoded JSON body and the URL of
      its `next` link, if any. */
  datatype Reply = Raised | Response(ok: bool, body: seq<Account>, next: Option<Url>)

  /** The walk goes no further than this reply. */
  predicate EndsChain(r: Reply) {
    r.Raised? || r.next.None?
  }

  /** The walk stops within the scripted replies: the first reply already
      ends the run, or some reply ends the chain. */
  predicate HasChainEnd(replies: seq<Reply>) {
    && replies != []
    && (replies[0].Raised? || !replies[0].ok
        || exists k :: 0 <= k < |replies| && EndsChain(replies[k]))
  }

  /** Index of the first reply that ends the chain. */
  function ChainEnd(replies: seq<Reply>): (n: nat)
    requires exists k :: 0 <= k < |replies| && EndsChain(replies[k])
    ensures n < |replies| && EndsChain(replies[n])
    ensures forall j :: 0 <= j < n ==> !EndsChain(replies[j])
  {
    if EndsChain(replies[0]) then 0
    else
      assert exists k :: 0 <= k < |replies[1..]| && EndsChain(replies[1..][k]) by {
        var k :| 0 <= k < |replies| && EndsChain(replies[k]);
        assert replies[1..][k - 1] == replies[k];
      }
      1 + ChainEnd(replies[1..])
  }

  /** The bodies of a run of responses, concatenated in order. */
  function Bodies(rs: seq<Reply>): seq<Account>
    requires forall j :: 0 <= j < |rs| ==> rs[j].Response?
  {
    if rs == [] then [] else Bodies(rs[..|rs| - 1]) + rs[|rs| - 1].body
  }

  const AccountsApi: Url := "https://baraag.net/api/v1/accounts/"

  /** The endpoint listing whom `userId` follows: the accounts API, the id
      in decimal, then `/following`; the id can be read back from between
      the two fixed parts. */
  function FollowingUrl(userId: nat): (url: Url)
    ensures |url| > |AccountsApi| + 10
    ensures url[..|AccountsApi|] == AccountsApi && url[|url| - 10..] == "/following"
    ensures url[|AccountsApi|..|url| - 10] == Decimal(userId)
  {
    AccountsApi + Decimal(userId) + "/following"
  }

  /** Different users are never asked about at the same URL. */
  lemma FollowingUrlInjective(a: nat, b: nat)
    requires FollowingUrl(a) == FollowingUrl(b)
    ensures a == b
  {
    DecimalInjective(a, b);
  }

  /** Runs `get_following(userId)` against a server whose k-th answer is
      `replies[k]`; returns the follow list and the URLs requested. */
  method GetFollowing(userId: nat, replies: seq<Reply>) returns (follows: Outcome<seq<Account>>, requested: seq<Url>)
    requires HasChainEnd(replies)
    ensures requested != [] && requested[0] == FollowingUrl(userId)
    ensures replies[0].Raised? ==> follows == Exit(FollowRequestFailed) && |requested| == 1
    ensures replies[0].Response? && !replies[0].ok ==> follows == Exit(FollowResponseBad) && |requested| == 1
    ensures replies[0].Response? && replies[0].ok ==>
      && (exists k :: 0 <= k < |replies| && EndsChain(replies[k]))
      && |requested| == ChainEnd(replies) + 1
      && (forall k :: 0 <= k < |requested| - 1 ==>
            replies[k].Response? && replies[k].next == Some(requested[k + 1]))
      && (follows.Ok? <==> replies[ChainEnd(replies)].Response?)
      && (follows.Exit? ==> follows.reason == FollowWalkCrashed)
      && (follows.Ok? ==> follows.value == Bodies(replies[..ChainEnd(replies) + 1]))
  {
    requested := [FollowingUrl(userId)];
    var response := replies[0];
    if response.Raised? {
      return Exit(FollowRequestFailed), requested;
    }
    if !response.ok {
      return Exit(FollowResponseBad), requested;
    }
    var followList: seq<Account> := [];
    var i := 0;
    while response.next.Some?
      invariant 0 <= i < |replies|
      invariant forall j :: 0 <= j < i ==> !EndsChain(replies[j])
      invariant replies[i] == response && response.Response?
      invariant |requested| == i + 1 && requested[0] == FollowingUrl(userId)
      invariant forall k :: 0 <= k < i ==> replies[k].next == Some(requested[k + 1])
      invariant followList == Bodies(replies[..i])
      decreases |replies| - i
    {
      assert replies[..i + 1][..i] == replies[..i];
      followList := followList + response.body;
      var url := response.next.value;
      requested := requested + [url];
      i := i + 1;
      if i == |replies| {
        // The script ran out inside the chain, which `HasChainEnd` excludes.
        assert false;
      }
      response := replies[i];
      if response.Raised? {
        return Exit(FollowWalkCrashed), requested;
      }
    }
    assert replies[..i + 1][..i] == replies[..i];
    followList := followList + response.body;
    follows := Ok(followList);
  }

  /** One value of the dictionary `parse_following` builds. */
  datatype Followed = Followed(account: string, id: string)

  /** The key/value pairs the comprehension of `parse_following` visits. */
  function FollowPairs(accounts: seq<Account>): (ps: seq<(string, Followed)>)
    ensures |ps| == |accounts|
    ensures forall i :: 0 <= i < |ps| ==>
      ps[i] == (accounts[i].acct, Followed(accounts[i].acct, accounts[i].id))
  {
    seq(|accounts|, i requires 0 <= i < |accounts| =>
      (accounts[i].acct, Followed(accounts[i].acct, accounts[i].id)))
  }

  /** The handles of the list, in order. */
  function Handles(accounts: seq<Account>): (hs: seq<string>)
    ensures |hs| == |accounts|
    ensures forall i :: 0 <= i < |hs| ==> hs[i] == accounts[i].acct
  {
    seq(|accounts|, i requires 0 <= i < |accounts| => accounts[i].acct)
  }

  /** `parse_following`: the follow list keyed by handle. Its keys are
      exactly the handles of the list, and iteration visits them in the order
      of their first entry. */
  function ParseFollowing(accounts: seq<Account>): (d: Dict<Followed>)
    ensures d.Valid()
    ensures forall h :: h in d.entries <==> h in Handles(accounts)
    ensures forall i, j :: 0 <= i < j < |d.order| ==>
      FirstOf(Handles(accounts), d.order[i]) < FirstOf(Handles(accounts), d.order[j])
  {
    var ps := FollowPairs(accounts);
    assert Keys(ps) == Handles(accounts);
    FromPairsOrder(ps);
    FromPairs(ps)
  }

  /** The value under a handle names that handle as `account` and carries
      the id of the last entry with that handle. */
  lemma ParseFollowingValue(accounts: seq<Account>, h: string)
    requires h in ParseFollowing(accounts).entries
    ensures h in Handles(accounts)
    ensures ParseFollowing(accounts).entries[h] == Followed(h, accounts[LastOf(Handles(accounts), h)].id)
  {
    var ps := FollowPairs(accounts);
    assert Keys(ps) == Handles(accounts);
    FromPairsLast(ps, h);
  }

  /** Every value of `parse_following` names its own key as `account`, and a
      handle listed twice keeps the id of its last entry. */
  lemma ParseFollowingSpec(accounts: seq<Account>)
    ensures forall h :: h in ParseFollowing(accounts).entries ==>
      ParseFollowing(accounts).entries[h] == Followed(h, accounts[LastOf(Handles(accounts), h)].id)
  {
    forall h | h in ParseFollowing(accounts).entries
      ensures ParseFollowing(accounts).entries[h] == Followed(h, accounts[LastOf(Handles(accounts), h)].id)
    {
      ParseFollowingValue(accounts, h);
    }
  }
}

=== FILE: naming.dfy ===
/** `sanitize` and the per-account folder name built from it. */
module Naming {
  import opened Text

  /** The characters `sanitize` replaces with `_`. `/` is not among them. */
  const BadChars: set<char> := {'^', '@', '%', '$', '?', ':', '<', '>', '\\', '*', '|', '"', ' '}

  /** `sanitize(string)`: each bad character becomes `_`, every other
      character is kept, in order. */
  function Sanitize(s: string): (r: string)
    ensures |r| == |s|
    ensures forall i :: 0 <= i < |s| && s[i] in BadChars ==> r[i] == '_'
    ensures forall i :: 0 <= i < |s| && s[i] !in BadChars ==> r[i] == s[i]
    ensures forall i :: 0 <= i < |r| ==> r[i] !in BadChars
  {
    if s == [] then []
    else
      var c := s[|s| - 1];
      Sanitize(s[..|s| - 1]) + [if c in BadChars then '_' else c]
  }

  /** A string is left as it is exactly when it holds no bad character. */
  lemma SanitizeFixpoint(s: string)
    ensures Sanitize(s) == s <==> forall i :: 0 <= i < |s| ==> s[i] !in BadChars
  {
  }

  /** Sanitizing twice is sanitizing once. */
  lemma SanitizeIdempotent(s: string)
    ensures Sanitize(Sanitize(s)) == Sanitize(s)
  {
    SanitizeFixpoint(Sanitize(s));
  }

  /** `sanitize(account_name) + "_" + str(account_id)`: the handle with its
      bad characters replaced, `_`, then the id as it is. */
  function FolderName(acct: string, id: string): (name: string)
    ensures |name| == |acct| + 1 + |id| && name[|acct|] == '_' && name[|acct| + 1..] == id
    ensures forall i :: 0 <= i < |acct| ==>
      name[i] !in BadChars && (acct[i] !in BadChars ==> name[i] == acct[i])
    ensures forall i :: 0 <= i < |acct| && acct[i] in BadChars ==> name[i] == '_'
  {
    Sanitize(acct) + "_" + id
  }

  /** The characters that separate folders in a path: `/` when `os.name` is
      `"posix"`; on Windows `\` as well. */
  function Separators(posix: bool): set<char> {
    if posix then {'/'} else {'/', '\\'}
  }

  /** The folder prefix of every file path: the name and the separator of
      the platform (`/` when `os.name` is `"posix"`, `\` otherwise). On
      Windows that separator is a character `sanitize` removes from handles;
      on POSIX it is not. */
  function FolderPath(name: string, posix: bool): (path: string)
    ensures |path| == |name| + 1 && path[..|name|] == name
    ensures path[|name|] in Separators(posix)
    ensures path[|name|] in BadChars <==> !posix
  {
    name + (if posix then "/" else "\\")
  }

  /** The account id can be read back from the folder name: it is the part
      after the last `_`, whatever the handle holds. */
  lemma FolderNameId(acct: string, id: string)
    requires '_' !in id
    ensures LastSegment(FolderName(acct, id), '_') == id
  {
    assert FolderName(acct, id) == Sanitize(acct) + ['_'] + id;
    LastSegmentAfter(Sanitize(acct), '_', id);
  }

  /** Accounts with different ids never share a folder, even when their
      handles sanitize to the same text. */
  lemma FolderNameDistinct(acct1: string, id1: string, acct2: string, id2: string)
    requires '_' !in id1 && '_' !in id2 && id1 != id2
    ensures FolderName(acct1, id1) != FolderName(acct2, id2)
  {
    FolderNameId(acct1, id1);
    FolderNameId(acct2, id2);
  }

  /** The folder name holds no bad character when the id holds none. */
  lemma FolderNameClean(acct: string, id: string)
    requires forall i :: 0 <= i < |id| ==> id[i] !in BadChars
    ensures forall i :: 0 <= i < |FolderName(acct, id)| ==> FolderName(acct, id)[i] !in BadChars
  {
    var n := FolderName(acct, id);
    forall i | 0 <= i < |n| ensures n[i] !in BadChars {
      if i < |acct| {
        assert n[i] == Sanitize(acct)[i];
      } else if i > |acct| {
        assert n[i] == id[i - |acct| - 1];
      }
    }
  }
}

=== FILE: seqs.dfy ===
/** Positions of elements in sequences: the first and the last occurrence. */
module Seqs {

  /** Index of the first occurrence of `x` in `s`. */
  function FirstOf<T(==)>(s: seq<T>, x: T): (i: nat)
    requires x in s
    ensures i < |s| && s[i] == x
    ensures forall j :: 0 <= j < i ==> s[j] != x
  {
    if s[0] == x then 0
    else
      assert x in s[1..] by {
        var j :| 0 <= j < |s| && s[j] == x;
        assert s[1..][j - 1] == s[j];
      }
      1 + FirstOf(s[1..], x)
  }

  /** Index of the last occurrence of `x` in `s`. */
  function LastOf<T(==)>(s: seq<T>, x: T): (i: nat)
    requires x in s
    ensures i < |s| && s[i] == x
    ensures forall j :: i < j < |s| ==> s[j] != x
  {
    var n := |s| - 1;
    if s[n] == x then n
    else
      assert x in s[..n] by {
        var j :| 0 <= j < |s| && s[j] == x;
        assert s[..n][j] == s[j];
      }
      LastOf(s[..n], x)
  }

  /** Appending an element leaves the first occurrence of an element already
      present where it was; a new element is found at the end. */
  lemma FirstOfSnoc<T>(s: seq<T>, x: T, k: T)
    requires k in s + [x]
    ensures k in s ==> FirstOf(s + [x], k) == FirstOf(s, k)
    ensures k !in s ==> FirstOf(s + [x], k) == |s|
  {
    var i := FirstOf(s + [x], k);
    if k in s {
      var i0 := FirstOf(s, k);
      assert (s + [x])[i0] == k;
    }
  }

  /** Concatenation nested to the right equals the same parts nested to
      the left. */
  lemma Regroup<T>(a: seq<T>, b: seq<T>, c: seq<T>, d: seq<T>, e: seq<T>, f: seq<T>, g: seq<T>)
    ensures a + (b + (c + (d + (e + (f + g))))) == a + b + c + d + e + f + g
  {
    assert e + (f + g) == e + f + g;
    assert d + (e + f + g) == d + e + f + g;
    assert c + (d + e + f + g) == c + d + e + f + g;
    assert b + (c + d + e + f + g) == b + c + d + e + f + g;
  }

  /** A list without repeats has as many distinct elements as positions. */
  lemma {:induction false} DistinctCard<T>(s: seq<T>)
    requires forall i, j :: 0 <= i < j < |s| ==> s[i] != s[j]
    ensures |set x | x in s| == |s|
    decreases |s|
  {
    if s != [] {
      var n := |s| - 1;
      DistinctCard(s[..n]);
      assert (set x | x in s) == (set x | x in s[..n]) + {s[n]};
      assert s[n] !in s[..n] by {
        forall j | 0 <= j < n ensures s[..n][j] != s[n] {
          assert s[..n][j] == s[j];
        }
      }
    }
  }
}

=== FILE: text.dfy ===
/** The few pieces of Python string behaviour the downloader relies on:
    `str(int)`, `str.split()` with no argument, `str.split(c)[-1]`. */
module Text {
  import opened Wrappers
  import opened Seqs

  /** The characters Python's `str.isspace()` accepts; `str.split()` with no
      argument separates on runs of exactly these. */
  predicate IsSpace(c: char) {
    var n := c as int;
    || 9 <= n <= 13 || 28 <= n <= 32 || n == 0x85 || n == 0xA0 || n == 0x1680
    || 0x2000 <= n <= 0x200A || n == 0x2028 || n == 0x2029 || n == 0x202F
    || n == 0x205F || n == 0x3000
  }

  predicate AllSpace(s: string) {
    forall i :: 0 <= i < |s| ==> IsSpace(s[i])
  }

  predicate NoSpace(s: string) {
    forall i :: 0 <= i < |s| ==> !IsSpace(s[i])
  }

  /** `t` is the first element of `s.split()`: `s` is some whitespace, then
      `t` (non-empty, no whitespace), then the end or a whitespace character. */
  ghost predicate IsFirstToken(s: string, t: string) {
    exists k :: IsTokenAt(s, t, k)
  }

  /** Length of the whitespace run at the start of `s`. */
  function LeadingSpace(s: string): (k: nat)
    ensures k <= |s|
    ensures AllSpace(s[..k])
    ensures k < |s| ==> !IsSpace(s[k])
  {
    if s == [] || !IsSpace(s[0]) then 0
    else
      var k := 1 + LeadingSpace(s[1..]);
      assert forall i :: 1 <= i < k ==> s[i] == s[1..][i - 1];
      k
  }

  /** Length of the non-whitespace run at the start of `s`. */
  function LeadingWord(s: string): (k: nat)
    ensures k <= |s|
    ensures NoSpace(s[..k])
    ensures k < |s| ==> IsSpace(s[k])
  {
    if s == [] || IsSpace(s[0]) then 0
    else
      var k := 1 + LeadingWord(s[1..]);
      assert forall i :: 1 <= i < k ==> s[i] == s[1..][i - 1];
      k
  }

  /** `s.split()[0]`, or `None` where Python raises IndexError because
      `s` holds nothing but whitespace. */
  function FirstToken(s: string): (r: Option<string>)
    ensures r.None? <==> AllSpace(s)
    ensures r.Some? ==> IsFirstToken(s, r.value)
  {
    var k := LeadingSpace(s);
    if k == |s| then
      assert s[..k] == s;
      None
    else
      var w := LeadingWord(s[k..]);
      assert s[k..][..w] == s[k..k + w];
      assert !AllSpace(s) by { assert !IsSpace(s[k]); }
      assert k + w < |s| ==> s[k..][w] == s[k + w];
      assert IsTokenAt(s, s[k..k + w], k);
      Some(s[k..k + w])
  }

  /** The first token is unique: whatever meets the description of
      `IsFirstToken` is what `FirstToken` returns. */
  lemma FirstTokenUnique(s: string, t: string)
    requires IsFirstToken(s, t)
    ensures FirstToken(s) == Some(t)
  {
    var k :| IsTokenAt(s, t, k);
    TokenAtLeadingSpace(s, t, k);
    TokenAtLeadingWord(s, t, k);
    assert k < |s|;
    assert FirstToken(s) == Some(s[k..k + |t|]);
  }

  /** The body of `IsFirstToken` for one start position `k`. */
  ghost predicate IsTokenAt(s: string, t: string, k: int) {
    && 0 <= k && k + |t| <= |s|
    && AllSpace(s[..k])
    && s[k..k + |t|] == t
    && t != [] && NoSpace(t)
    && (k + |t| == |s| || IsSpace(s[k + |t|]))
  }

  lemma TokenAtLeadingSpace(s: string, t: string, k: int)
    requires IsTokenAt(s, t, k)
    ensures LeadingSpace(s) == k
  {
    var k' := LeadingSpace(s);
    assert s[k] == t[0];
    if k' < k {
      assert false;
    } else if k < k' {
      assert false;
    }
  }

  lemma TokenAtLeadingWord(s: string, t: string, k: int)
    requires IsTokenAt(s, t, k)
    ensures LeadingWord(s[k..]) == |t|
  {
    var w := LeadingWord(s[k..]);
    if w < |t| {
      assert false;
    } else if |t| < w {
      assert false;
    }
  }

  /** The part of `s` after its last `c`: Python's `s.split(c)[-1]`,
      which is all of `s` when `c` does not occur. */
  function LastSegment(s: string, c: char): (r: string)
    ensures c !in r
    ensures |r| <= |s| && r == s[|s| - |r|..]
    ensures |r| < |s| ==> s[|s| - |r| - 1] == c
    decreases |s|
  {
    if s == [] then []
    else
      var n := |s| - 1;
      if s[n] == c then []
      else
        var r := LastSegment(s[..n], c);
        assert s[n - |r|..] == s[..n][n - |r|..] + [s[n]];
        assert |r| < n ==> s[n - |r| - 1] == s[..n][n - |r| - 1];
        r + [s[n]]
  }

  /** With no `c` in `s`, the last segment is `s` itself. */
  lemma LastSegmentNone(s: string, c: char)
    ensures c !in s ==> LastSegment(s, c) == s
  {
  }

  /** The last segment of `x + [c] + y` is `y` when `y` has no `c`. */
  lemma {:induction false} LastSegmentAfter(x: string, c: char, y: string)
    requires c !in y
    ensures LastSegment(x + [c] + y, c) == y
    decreases |y|
  {
    if y != [] {
      var y' := y[..|y| - 1];
      assert (x + [c] + y)[..|x| + |y|] == x + [c] + y';
      LastSegmentAfter(x, c, y');
      assert y == y' + [y[|y| - 1]];
    }
  }

  /** The character for a decimal digit `d`. */
  function Digit(d: nat): char
    requires d < 10
  {
    "0123456789"[d]
  }

  predicate IsDigit(c: char) {
    '0' <= c <= '9'
  }

  predicate AllDigits(s: string) {
    forall i :: 0 <= i < |s| ==> IsDigit(s[i])
  }

  /** Python's `str(n)` for a non-negative integer: digits only, with no
      leading zero except for zero itself. */
  function Decimal(n: nat): (r: string)
    ensures r != []
    ensures AllDigits(r)
    ensures r[0] == '0' <==> n == 0
  {
    if n < 10 then [Digit(n)] else Decimal(n / 10) + [Digit(n % 10)]
  }

  /** The number a string of decimal digits denotes, read left to right. */
  function Value(s: string): nat
    requires AllDigits(s)
  {
    if s == [] then 0 else 10 * Value(s[..|s| - 1]) + ((s[|s| - 1] as int) - ('0' as int))
  }

  lemma DigitValue(d: nat)
    requires d < 10
    ensures (Digit(d) as int) - ('0' as int) == d
  {
  }

  /** `str(n)` reads back as `n`: the digits denote the value. */
  lemma {:induction false} DecimalValue(n: nat)
    ensures Value(Decimal(n)) == n
    decreases n
  {
    var r := Decimal(n);
    if n < 10 {
      DigitValue(n);
      assert r[..0] == [];
    } else {
      DecimalValue(n / 10);
      DigitValue(n % 10);
      assert r[..|r| - 1] == Decimal(n / 10);
    }
  }

  /** Conversely, every digit string without a leading zero (other than
      `"0"` itself) is `str` of the number it denotes. */
  lemma {:induction false} ValueDecimal(s: string)
    requires s != [] && AllDigits(s) && (s[0] == '0' ==> |s| == 1)
    ensures Decimal(Value(s)) == s
    decreases |s|
  {
    var c := s[|s| - 1];
    var d := (c as int) - ('0' as int);
    var v := Value(s);
    if |s| == 1 {
      assert s[..0] == [] && Value(s[..0]) == 0;
      assert v == d;
      assert Digit(d) == c;
    } else {
      var t := s[..|s| - 1];
      assert t[0] == s[0];
      ValueDecimal(t);
      assert Value(t) != 0;
      assert v / 10 == Value(t) && v % 10 == d;
      assert Digit(d) == c;
      assert s == t + [c];
    }
  }

  lemma DigitInjective(a: nat, b: nat)
    requires a < 10 && b < 10 && Digit(a) == Digit(b)
    ensures a == b
  {
  }

  /** `str` is injective on non-negative integers, so distinct ids always
      render to distinct keys. */
  lemma {:induction false} DecimalInjective(n: nat, m: nat)
    requires Decimal(n) == Decimal(m)
    ensures n == m
    decreases n
  {
    if n < 10 && m < 10 {
      DigitInjective(n, m);
    } else if n >= 10 && m >= 10 {
      var a, b := Decimal(n / 10), Decimal(m / 10);
      assert a + [Digit(n % 10)] == b + [Digit(m % 10)];
      assert a == (a + [Digit(n % 10)])[..|a|];
      assert b == (b + [Digit(m % 10)])[..|b|];
      DigitInjective(n % 10, m % 10);
      DecimalInjective(n / 10, m / 10);
    }
  }

  /** Splitting at the last `c` is unambiguous: if `y` and `y'` hold no `c`,
      then `x + [c] + y == x' + [c] + y'` forces both halves equal. */
  lemma SplitAtLast(x: string, y: string, x': string, y': string, c: char)
    requires c !in y && c !in y'
    requires x + [c] + y == x' + [c] + y'
    ensures x == x' && y == y'
  {
    LastSegmentAfter(x, c, y);
    LastSegmentAfter(x', c, y');
    assert x == (x + [c] + y)[..|x|];
    assert x' == (x' + [c] + y')[..|x'|];
  }
}

=== FILE: timeline.dfy ===
/** `get_timeline`: walking an account's media posts page by page with a
    `max_id` cursor until the server answers with an empty page. */
module Timeline {
  import opened Wrappers
  import opened Entities

  /** What one call of `get_page` yields: a page, or a Mastodon.py error,
      after which the error handler ends the run. */
  datatype PageReply = Posts(page: Page) | ApiError

  /** The loop stops at this reply (an empty page), or the run ends there. */
  predicate Stops(r: PageReply) {
    r.ApiError? || |r.page| == 0
  }

  /** The scripted server answers some fetch with an empty page or an error;
      without one the loop of the source never ends. */
  predicate HasStop(replies: seq<PageReply>) {
    exists k :: 0 <= k < |replies| && Stops(replies[k])
  }

  /** Index of the reply that ends the walk. */
  function StopIndex(replies: seq<PageReply>): (n: nat)
    requires HasStop(replies)
    ensures n < |replies| && Stops(replies[n])
    ensures forall j :: 0 <= j < n ==> !Stops(replies[j])
  {
    if Stops(replies[0]) then 0
    else
      assert HasStop(replies[1..]) by {
        var k :| 0 <= k < |replies| && Stops(replies[k]);
        assert replies[1..][k - 1] == replies[k];
      }
      1 + StopIndex(replies[1..])
  }

  /** The timeline the walk assembles: the pages before the stopping reply. */
  function Pages(replies: seq<PageReply>): (pages: seq<Page>)
    requires HasStop(replies)
    ensures |pages| == StopIndex(replies)
    ensures forall k :: 0 <= k < |pages| ==> replies[k] == Posts(pages[k]) && pages[k] != []
  {
    var n := StopIndex(replies);
    seq(n, k requires 0 <= k < n => replies[k].page)
  }

  /** Runs the loop of `get_timeline` against a server whose k-th answer is
      `replies[k]`. Returns the timeline and the `max_id` each fetch used. */
  method GetTimeline(replies: seq<PageReply>) returns (timeline: Outcome<seq<Page>>, cursors: seq<Option<nat>>)
    requires HasStop(replies)
    ensures |cursors| == StopIndex(replies) + 1
    ensures cursors[0] == None
    ensures forall k :: 0 <= k < |cursors| - 1 ==>
      replies[k].Posts? && replies[k].page != [] &&
      cursors[k + 1] == Some(replies[k].page[|replies[k].page| - 1].id)
    ensures timeline.Ok? <==> replies[StopIndex(replies)].Posts?
    ensures timeline.Exit? ==> timeline.reason == ApiFailed
    ensures timeline.Ok? ==> timeline.value == Pages(replies)
    ensures timeline.Ok? ==> |cursors| == |timeline.value| + 1
  {
    var pages: seq<Page> := [];
    var cursor: Option<nat> := None;
    cursors := [cursor];
    var reply := replies[0];
    if reply.ApiError? {
      return Exit(ApiFailed), cursors;
    }
    var page := reply.page;
    var i := 0;
    while |page| != 0
      invariant 0 <= i < |replies|
      invariant forall j :: 0 <= j < i ==> !Stops(replies[j])
      invariant replies[i] == Posts(page)
      invariant |pages| == i && |cursors| == i + 1
      invariant cursors[0] == None
      invariant forall k :: 0 <= k < i ==> pages[k] == replies[k].page
      invariant forall k :: 0 <= k < i ==>
        cursors[k + 1] == Some(replies[k].page[|replies[k].page| - 1].id)
      decreases |replies| - i
    {
      pages := pages + [page];
      cursor := Some(page[|page| - 1].id);
      cursors := cursors + [cursor];
      i := i + 1;
      if i == |replies| {
        // The script ran out without a stopping reply, which `HasStop` excludes.
        assert false;
      }
      reply := replies[i];
      if reply.ApiError? {
        return Exit(ApiFailed), cursors;
      }
      page := reply.page;
    }
    timeline := Ok(pages);
  }
}

=== FILE: wrappers.dfy ===
/** Option and the fatal-exit outcome shared by every part of the model. */
module Wrappers {

  /** A value that may be absent (Python's `None`). */
  datatype Option<+T> = None | Some(value: T)

  /** Why a run of the downloader stops: each reason is a `sys.exit()` call
      or an exception the program never catches. */
  datatype ExitReason =
    | ApiFailed            // get_page: a Mastodon.py error handler exits
    | FollowRequestFailed  // get_following: the first HTTP request raised
    | FollowResponseBad    // get_following: the first response is not OK
    | FollowWalkCrashed    // get_following: a later request raised, uncaught
    | MalformedTimestamp   // get_attachment_data: `split()[0]` raised IndexError
    | DownloadFailed       // download_file: the request or the write failed

  /** The result of a step that either finishes or ends the whole run. */
  datatype Outcome<+T> = Ok(value: T) | Exit(reason: ExitReason)
}
